=== FILE: README.md ===
# X Live chat relay — a Dafny model

This project models the core of `x-live-streaming-statuses`. That is a relay that follows an X (Twitter) live broadcast. It does four things:

- It resolves the broadcast from a URL or an id and obtains chat credentials: a token from the stream-status endpoint, exchanged for an access token.
- It polls the chat-history endpoint with a cursor. It parses the chat envelopes and drops comments already delivered.
- It posts each new comment to the OneComme (わんコメ) comment receiver. A retrying client buffers comments while the receiver is unreachable.
- A companion browser extension recognises the Media Studio broadcast page, formats the live viewer count for its badge, and keeps its settings in browser storage.

Every stateful component (duplicate filter, buffered client, chat poller, token provider, status monitor) is an immutable datatype. Its operations are pure transition functions. Everything the source gets from the outside world is a parameter:

- Each `fetch` is a `Types.Outcome`: either the call threw (an abort, or any other failure, with its message) or the server replied with a status, a status text, the body text and the decoded body.
- The inner delivery client is a function from attempt number to result.
- JSON and base64url decoding are functions returning `Option`.
- The clock is a `now` argument.
- Timer firings are explicit `Tick` steps.

The modules follow the source files:

- `Results`, `Types`: shared data and result types (`src/result.ts`, `src/types.ts`).
- `Text`: the `[A-Za-z0-9_]` class, `String(n)`/`Number(s)` on decimal integers, `split`/`join`, containment.
- `DuplicateFilter`, `MessageParser`, `OneCommeClient`, `BufferedClient`, `ChatPoller`, `TokenProvider`, `StatusMonitor`, `BroadcastResolver`, `ServiceResolver`, `CliConfig`: one module per `src/` file.
- `Pipeline`: the `handleMessages` callback that joins parser, filter and buffered client.
- `ViewerCount`, `PageDetector`, `Settings`: the extension's core files.

Where the project's design notes and the code disagree, the model follows the code:

- When every attempt of `sendWithRetry` fails with a retryable error, the code returns the FIRST attempt's error, not the last (buffered-onecomme-client.ts:89-90).
- `parseArgs` produces only `missing_broadcast_url`, `missing_service_id`, `invalid_url` and `invalid_port`, and only takes `--service-id`. The larger error union and service-target options in `src/types.ts` are not used by it.
- The service resolver resolves by name only.

## Model

| member | source | states |
|---|---|---|
| Results.IsOk | src/result.ts:25-27 | a result is ok exactly when it is not an error |
| Results.IsErr | src/result.ts:30-32 | a result is an error exactly when it carries an error value |
| Results.OkRoundTrip | src/result.ts:15-40 | a result built from a value is ok, not an error, and unwraps to that value |
| Results.ErrIsErr | src/result.ts:20-32 | a result built from an error is an error and not ok |
| Results.Unwrap | src/result.ts:35-40 | the value taken out of an ok result is the one it holds |
| DuplicateFilter.Create | src/duplicate-filter.ts:5-18 | a new filter is empty, valid, and has the requested capacity, or 10000 when none is given |
| DuplicateFilter.MarkSent | src/duplicate-filter.ts:24-34 | keeps distinctness and the capacity bound; marking a present id changes nothing; afterwards the id is a duplicate (capacity ≥ 1); no id appears that was not there or just marked |
| DuplicateFilter.IsDuplicate | src/duplicate-filter.ts:20-22 | an id is a duplicate exactly when some entry of the window is that id |
| DuplicateFilter.Size | src/duplicate-filter.ts:36-38 | the size of a valid filter never exceeds its capacity |
| DuplicateFilter.SizeCountsDistinctIds | src/duplicate-filter.ts:17-38 | the window's length is the number of different ids it holds, as for the source's `Set` |
| DuplicateFilter.MarkSentFreshShape | src/duplicate-filter.ts:24-34 | a fresh id leaves the newest old ids followed by the new one, and the size grows by one up to capacity |
| DuplicateFilter.MarkSentBelowCapacityKeepsAll | src/duplicate-filter.ts:27 | below capacity nothing is evicted |
| DuplicateFilter.MarkSentEvictsOldest | src/duplicate-filter.ts:27-33 | at capacity a fresh id evicts exactly the oldest id; every other id stays |
| DuplicateFilter.MarkAll | src/duplicate-filter.ts:24-34 | marking a sequence keeps the filter valid and adds only ids from the sequence |
| DuplicateFilter.LastN | src/duplicate-filter.ts:27-33 | the window of the newest n entries: length min(len, n), a suffix |
| DuplicateFilter.MarkAllKeepsNewest | src/duplicate-filter.ts:24-34 | after distinct fresh ids, the filter holds exactly the newest `maxSize` ids ever marked, in insertion order |
| DuplicateFilter.WindowMembership | src/duplicate-filter.ts:20-22 | inside a newest-n window exactly the ids outside the window are not duplicates |
| DuplicateFilter.DistinctInsertsEvictOldest | src/duplicate-filter.ts:14-34 | with capacity N, after N + k distinct inserts the k oldest are forgotten, the N newest remembered, and the size is N |
| MessageParser.ParseEntry | src/message-parser.ts:39-73 | an envelope yields a comment exactly when it is a chat envelope (kind 1) whose payload and inner body both decode; field mapping uuid→id, twitter_id→userId, display name, body text, image, body timestamp, verified, lang |
| MessageParser.Parse | src/message-parser.ts:35-77 | no more comments than envelopes; every comment comes from some envelope and every decodable envelope contributes its comment |
| MessageParser.ParseAppend | src/message-parser.ts:38-74 | parsing distributes over concatenation, so order is kept and one entry never affects another |
| MessageParser.NoChatNoOutput | src/message-parser.ts:39-41 | a batch without kind-1 envelopes yields nothing |
| MessageParser.SkipUndecodable | src/message-parser.ts:43-61 | an envelope that fails to decode is dropped and the rest of the batch is unaffected |
| OneCommeClient.ToOneCommeComment | src/onecomme-client.ts:22-43 | payload fields copied from the comment; no badges, no gift; owner iff the user id equals the owner's; the timestamp is `String(timestamp)`: canonical decimal text reading back to the comment's number, the only such text by Text.CanonicalIntIsIntToString |
| OneCommeClient.Classify | src/onecomme-client.ts:60-95 | ok iff 2xx; abort iff timeout; other throw iff connection refused; 400 is invalid service id with the configured id; other statuses are API errors with status and text; never a validation error |
| OneCommeClient.CommentsUrl | src/onecomme-client.ts:50-62 | comments are posted to `/api/comments` on the configured host |
| OneCommeClient.Send | src/onecomme-client.ts:53-96 | posts to the comments URL the payload `ToOneCommeComment` builds for the configured service and owner; the result is the classification of the reply; ok iff the reply is 2xx |
| BufferedClient.Create | src/buffered-onecomme-client.ts:38-39 | a new client is connected with an empty buffer |
| BufferedClient.AddToBuffer | src/buffered-onecomme-client.ts:41-50 | append; at capacity the oldest entry goes; the bound is kept and the newest entry is last |
| BufferedClient.RetryLoop | src/buffered-onecomme-client.ts:69-90 | from a failed attempt i, the loop stops at the first success or configuration error; otherwise it uses every delay and returns the first attempt's error; the delays requested are a prefix of the schedule |
| BufferedClient.SendWithRetry | src/buffered-onecomme-client.ts:52-91 | at most one attempt per delay plus one; no attempt before the last stopped; the result is the stopping attempt's, or the first attempt's when none stopped |
| BufferedClient.FirstSuccessNoRetry | src/buffered-onecomme-client.ts:55-58 | an immediate success makes one call and waits for nothing |
| BufferedClient.ConfigErrorNotRetried | src/buffered-onecomme-client.ts:61-66 | an invalid service id or validation error ends the loop at the attempt that produced it |
| BufferedClient.DefaultDelaysWhenAllFail | src/buffered-onecomme-client.ts:10 | with the default schedule and all retryable failures: four calls, delays 1000, 2000, 4000 ms, and the first error |
| BufferedClient.Send | src/buffered-onecomme-client.ts:94-122 | while disconnected, buffer with no call and report ok; when connected, the calls and delays are those of the retry loop; a loop result of connection refused switches to buffering this comment and reports ok; any other loop result is returned as is with the state unchanged |
| BufferedClient.SendPreservesValid | src/buffered-onecomme-client.ts:94-122 | sending keeps the invariant: buffer within capacity, empty while connected, non-empty while disconnected |
| BufferedClient.UnreachableReceiverBuffers | src/buffered-onecomme-client.ts:111-119 | a receiver refusing every attempt makes the client disconnect and buffer exactly this comment |
| BufferedClient.FlushFrom | src/buffered-onecomme-client.ts:141-154 | FIFO drain: sends a prefix of the buffer; connected again iff every send succeeded; on a failure the failed comment and the rest stay buffered |
| BufferedClient.Flush | src/buffered-onecomme-client.ts:132-158 | an empty buffer does nothing; otherwise as the drain loop, with the sent comments a prefix of the buffer |
| BufferedClient.FlushPreservesValid | src/buffered-onecomme-client.ts:132-158 | flushing keeps the client invariant |
| BufferedClient.ReachableValid | src/buffered-onecomme-client.ts:38-158 | every client reached from a new one by any sequence of sends and flushes satisfies the invariant |
| BufferedClient.ReachableConnectedIffEmpty | src/buffered-onecomme-client.ts:39-50 | in every reachable state the buffer is within capacity and, with room for one comment, the client is connected exactly when its buffer is empty |
| ChatPoller.Create | src/chat-poller.ts:30-37 | empty cursor, no timer, interval equal to the base; the base is the given interval, or 3000 ms when none is given |
| ChatPoller.Start | src/chat-poller.ts:40-108 | the timer is armed and the interval reset to the base; the cursor is kept |
| ChatPoller.Stop | src/chat-poller.ts:110-115 | the timer is disarmed; cursor and interval kept |
| ChatPoller.Request | src/chat-poller.ts:49-59 | the request goes to the credentials' endpoint plus `/chatapi/v1/history` and carries the access token and stored cursor, limit 1000, `since = 0` only while the cursor is empty, no quick fetch |
| ChatPoller.GetCursor | src/chat-poller.ts:117-119 | the cursor reported is the one the next request carries; while it is empty the request asks from the start |
| ChatPoller.TickAsWritten | src/chat-poller.ts:62-100 | the tick as the source writes it; a 429 always leaves the timer armed |
| ChatPoller.Tick | src/chat-poller.ts:62-100 | 401 fires only token-expired; 429 doubles the interval; other failures do nothing; success replaces the cursor only when the new one is non-empty and passes a non-empty message list once; the timer state is never changed |
| ChatPoller.RunSummary | src/chat-poller.ts:62-100 | over any run: interval = start × 2^(number of 429s); cursor = last non-empty cursor received; the callbacks deliver exactly the successful responses' messages in order, never an empty list |
| ChatPoller.RateLimitBackoffFromStart | src/chat-poller.ts:45-81 | after start, k rate-limit responses give base × 2^k |
| ChatPoller.StoppedStaysStopped | src/chat-poller.ts:110-115 | with the corrected tick, nothing re-arms a stopped poller |
| ChatPoller.AsWrittenRateLimitRestartsStoppedPoller | src/chat-poller.ts:69-81 | with the source's tick, a 429 arriving after stop re-arms the timer |
| TokenProvider.DecodeJwtExp | src/token-provider.ts:14-25 | an expiry only for a token with exactly three segments, and then the middle segment's numeric `exp` |
| TokenProvider.AcquireToken | src/token-provider.ts:45-112 | status fetch: throw → API error 0, 404 → stream not found, other non-2xx → API error; missing token or expiry → offline with no exchange; exchange: throw → API error 0, non-2xx → access denied; success iff both succeed, expiry in ms |
| TokenProvider.Create | src/token-provider.ts:118-120 | a new provider holds no credentials |
| TokenProvider.Acquire | src/token-provider.ts:123-139 | returns what the acquisition protocol returns for this key, with its requests; success stores key, credentials and time together; failure changes nothing |
| TokenProvider.Refresh | src/token-provider.ts:141-158 | without a stored key: offline and no request; otherwise the result and requests of the protocol for the stored key, which is kept; failure changes nothing |
| TokenProvider.IsExpiringSoon | src/token-provider.ts:160-167 | true without credentials; otherwise true iff elapsed ≥ 0.8 × lifetime, over the reals |
| TokenProvider.GetCredentials | src/token-provider.ts:169-171 | credentials exactly when some are stored, and then the stored ones |
| TokenProvider.ExpiringSoonIsMonotone | src/token-provider.ts:160-167 | once expiring soon, credentials stay expiring soon as time advances |
| TokenProvider.ExpiredIsExpiringSoon | src/token-provider.ts:160-167 | credentials past their expiry are expiring soon |
| TokenProvider.CredentialsAfterSuccess | src/token-provider.ts:126-171 | after a successful acquire or refresh the credentials held are the ones returned; a failed acquire leaves them as they were |
| TokenProvider.RefreshBeforeAcquire | src/token-provider.ts:142-144 | a refresh before any acquire fails offline without fetching |
| StatusMonitor.Create | src/status-monitor.ts:27-28 | starts in RUNNING with no timer |
| StatusMonitor.Start | src/status-monitor.ts:31-78 | the state is reset to RUNNING and the timer armed |
| StatusMonitor.Stop | src/status-monitor.ts:80-85 | the timer is disarmed and the state kept |
| StatusMonitor.StopIsIdempotent | src/status-monitor.ts:80-85 | stopping twice is the same as stopping once |
| StatusMonitor.GetCurrentState | src/status-monitor.ts:87-89 | the state reported is the one a tick compares with: a reported change always differs from it, and a tick that reports nothing keeps it |
| StatusMonitor.Observed | src/status-monitor.ts:40-58 | a state is observed only from a 2xx reply holding this broadcast's record |
| StatusMonitor.Tick | src/status-monitor.ts:37-75 | the callback fires iff a state different from the current one is observed; the state then becomes it; ENDED or TIMED_OUT stop the timer; otherwise nothing changes |
| StatusMonitor.RunSummary | src/status-monitor.ts:37-85 | over any run: reported states are changes, never repeated back to back; the current state is the last one reported; a terminal state is always the final report and stops the timer; a stopped monitor ignores ticks |
| StatusMonitor.RestartReportsFirstChange | src/status-monitor.ts:35-63 | after start, the first observed state other than RUNNING is reported |
| BroadcastResolver.MatchUrl | src/broadcast-resolver.ts:8-9 | a match exactly when the input starts with one of the four scheme/host prefixes followed by an id character; it captures the maximal id run |
| BroadcastResolver.PrefixesExclusive | src/broadcast-resolver.ts:8-9 | no input starts with two different URL prefixes |
| BroadcastResolver.MatchUrlAt | src/broadcast-resolver.ts:8-22 | whichever prefix matches, the captured id is the run that follows it |
| BroadcastResolver.ExtractBroadcastId | src/broadcast-resolver.ts:13-30 | ok iff the URL pattern matches or the input is a non-empty identifier; any id returned is a non-empty identifier; failures report the input as an invalid URL |
| BroadcastResolver.IdStringIsNotUrl | src/broadcast-resolver.ts:8-10 | an identifier never matches the URL pattern |
| BroadcastResolver.ExtractIsIdempotent | src/broadcast-resolver.ts:13-30 | extracting from an extracted id returns the same id |
| BroadcastResolver.ExtractFromUrl | src/broadcast-resolver.ts:8-22 | prefix + id + anything not continuing the id extracts to the id |
| BroadcastResolver.ExtractBareId | src/broadcast-resolver.ts:25-27 | a bare identifier is returned unchanged |
| BroadcastResolver.Resolve | src/broadcast-resolver.ts:58-108 | no request for an invalid input; throw → API error 0; non-2xx → API error with status text; missing record → not found; state ENDED → already ended; otherwise the record's fields, start converted to ms |
| ServiceResolver.ServicesUrl | src/service-resolver.ts:19-25 | the services are fetched from `/api/services` on the configured host |
| ServiceResolver.Matching | src/service-resolver.ts:39 | exactly the services with the given name; a one-element list gives itself or nothing |
| ServiceResolver.MatchingAppend | src/service-resolver.ts:39 | filtering distributes over concatenation, so the matches keep list order and multiplicity |
| ServiceResolver.Resolve | src/service-resolver.ts:22-59 | fetches the services URL; abort → timeout, other throw → connection refused, non-2xx → API error with the body text; ok iff exactly one service has the name, with its id; no service of that name → not found listing all names; two or more → ambiguous listing exactly the matching (id, name) pairs in order |
| ServiceResolver.FormatServiceResolveError | src/service-resolver.ts:64-77 | every message starts with the error marker |
| ServiceResolver.NotFoundListsServices | src/service-resolver.ts:45 | the not-found message contains the name asked for and every available service name |
| ServiceResolver.NotFoundWithoutServices | src/service-resolver.ts:45 | with no services the message says `(なし)` |
| ServiceResolver.AmbiguousListsIds | src/service-resolver.ts:47 | the ambiguity message mentions `--service-id` and the id of every match |
| CliConfig.Apply | src/cli-config.ts:28-43 | one loop iteration: an option with a value sets exactly its field, an interval only when positive; a positional argument replaces the URL; nothing else changes |
| CliConfig.Scan | src/cli-config.ts:27-44 | a field whose option does not occur, or the URL when no positional argument occurs, keeps its value |
| CliConfig.ScanSound | src/cli-config.ts:27-44 | every collected value comes from the arguments in its place: the URL is a positional argument, each option value follows its flag; the interval stays positive |
| CliConfig.ScanAppend | src/cli-config.ts:27-44 | scanning is a left-to-right fold: after arguments not ending in a dangling option, the rest is scanned from the state they produced |
| CliConfig.LastPositionalWins | src/cli-config.ts:40-43 | a positional argument after the others replaces the URL and changes nothing else |
| CliConfig.LaterOptionOverrides | src/cli-config.ts:29-39 | a later option overrides an earlier one; an interval only when it is a positive number |
| CliConfig.ParseArgs | src/cli-config.ts:15-80 | missing URL iff the scan found no positional argument; then, in order, missing service id, invalid URL carrying the raw URL, invalid port carrying the raw text; ok otherwise, with the scanned URL, service id, host and interval and the default or given port; absent options take their defaults; a returned config has an accepted URL, a port in 1..65535 and a positive interval |
| CliConfig.MinimalCommandLine | src/cli-config.ts:15-80 | `<url> --service-id <id>` yields localhost, 11180 and 3000 ms |
| CliConfig.PortRoundTrip | src/cli-config.ts:63-69 | any port 1..65535 written in decimal is accepted as given |
| CliConfig.NonPositiveIntervalIgnored | src/cli-config.ts:35-39 | a non-positive interval is ignored and the default kept |
| CliConfig.FormatConfigError | src/cli-config.ts:94-105 | every message starts with the error marker |
| CliConfig.MessagesQuoteValue | src/cli-config.ts:100-103 | the invalid-URL and invalid-port messages contain the offending value |
| Text.IntToString | extension/src/viewer-count.ts:15 | `String(n)` on an integer is canonical: a `-` exactly for a negative number, then digits with no leading zero |
| Text.CanonicalIntIsIntToString | src/onecomme-client.ts:40 | a canonical decimal text that reads back as n is exactly `String(n)` |
| ViewerCount.ExtractCurrentViewerCount | extension/src/viewer-count.ts:4-9 | nothing iff the series is empty; otherwise its last bucket |
| ViewerCount.FormatViewerCount | extension/src/viewer-count.ts:12-16 | below 1000 the text is `String(count)`: the canonical decimal form (no `+`, no leading zero, no `-0`) that reads back as the count, which by Text.CanonicalIntIsIntToString is the only such text; from 1000 it ends in `k` |
| ViewerCount.WholeThousandsApproximate | extension/src/viewer-count.ts:13 | from 9950 the number shown is the count in thousands, within half a thousand |
| ViewerCount.TenthsApproximate | extension/src/viewer-count.ts:14 | from 1000 to 9949 the text is `a.bk` with a.b the count in thousands, within fifty |
| ViewerCount.FitsBadge | extension/src/viewer-count.ts:11-16 | the text has at most four characters for counts 0..999499 |
| ViewerCount.TooWideFromMillion | extension/src/viewer-count.ts:13 | from 999500 the text has at least five characters |
| PageDetector.ExtractBroadcastId | extension/src/page-detector.ts:1-13 | an id exactly when the URL starts with the producer prefix followed by an id character; the id is the non-empty identifier right after the prefix |
| PageDetector.IsProducerPage | extension/src/page-detector.ts:5-13 | a URL is a producer page exactly when an id can be extracted from it |
| PageDetector.ExtractRoundTrip | extension/src/page-detector.ts:10-13 | prefix + id + anything not continuing the id extracts to the id |
| Settings.LoadSettings | extension/src/settings.ts:35-50 | each field is the stored value if it has the right type, else the default localhost / 11190 |
| Settings.SaveSettings | extension/src/settings.ts:52-54 | writes into the local area only; other local keys and the session area are untouched |
| Settings.LoadSessionState | extension/src/settings.ts:56-77 | each field read if well typed; the flag defaults to false and every other field to null |
| Settings.SaveSessionState | extension/src/settings.ts:79-81 | writes every session key: the flag as a boolean, each present value as its string or number and each absent one as null; the local area and other session keys are untouched |
| Settings.SettingsRoundTrip | extension/src/settings.ts:35-54 | loading after saving gives the saved settings |
| Settings.SaveSettingsKeepsSession | extension/src/settings.ts:52-54 | saving settings does not change the loaded session state |
| Settings.SessionRoundTrip | extension/src/settings.ts:56-81 | loading after saving gives the saved session state |
| Settings.EmptyStorageLoadsDefaults | extension/src/settings.ts:35-77 | empty storage loads the default settings and the initial session state |
| Settings.ShouldReload | extension/src/settings.ts:85-89 | reload exactly for a local-area change touching a settings key |
| Settings.OnSettingsChanged | extension/src/settings.ts:83-93 | the callback receives the freshly loaded settings exactly when a reload is due |
| Settings.ChangedKeys | extension/src/settings.ts:84-89 | the keys a change event reports: those added, removed or given a different value |
| Settings.SaveTriggersReload | extension/src/settings.ts:52-93 | saving settings reloads exactly the saved settings, unless the local area already held them, in which case nothing is reloaded |
| Pipeline.HandleComment | src/index.ts:160-171 | a duplicate is skipped with no send; otherwise one send; delivery counted and the id marked iff the send succeeded; every send counted once as delivery or error; invariants kept |
| Pipeline.HandleMessages | src/index.ts:156-178 | at most one send per raw envelope; filter and client invariants kept |
| Pipeline.HandleSummary | src/index.ts:156-178 | over a batch: each send counted once; at most one send per comment; delivered ids come from the batch; invariants kept |
| Pipeline.NoRedeliveryWithinCapacity | src/index.ts:160-167 | while the filter has room for the batch, it holds the old ids plus the delivered ones in order, all distinct: no comment is delivered twice |

## Left out

- Network, timers, logging and `Date.now()` are not modelled. Each fetch is an outcome parameter, each timer firing a tick, and the clock a `now` argument.
- Interleaving is modelled only as an order of completed steps. A chat-poller tick is the completion of one request, and it may come after `stop`; this is how the finding below arises. A send or refresh still in flight when another operation starts is treated as completing first.
- StatusMonitor.Tick: a tick on a stopped monitor changes nothing. In the source, a poll already in flight when `stop` runs still updates the state and may fire the callback; that late completion is not modelled.
- Calling `start` twice without `stop` leaks the first interval timer in the chat poller and the status monitor. The model has one timer flag per component, so the leaked timer is not represented.
- JavaScript numbers are unbounded integers here. Non-integer, NaN and infinite values, and double rounding, are not represented. `Number(s)` is modelled for an optional sign followed by decimal digits, with `""` as 0; other spellings (spaces, `0x`, exponents, decimals) are treated as NaN.
- TokenProvider.IsExpiringSoon: compares `5 × elapsed ≥ 4 × lifetime` exactly. The source multiplies by the double `0.8`, whose rounding is not modelled.
- ViewerCount.FormatViewerCount, ViewerCount.TenthsApproximate: ties at an exact half (count ending in 50 in the tenths form) round half up. `toFixed(1)` rounds by the double's exact binary value, which is not modelled; at such a tie the model may show the upper tenth where the source shows the lower one.
- BroadcastResolver.Resolve, StatusMonitor.Observed: the broadcast record is looked up as a key of a finite map, so an id missing from the `broadcasts` object is not found. The source reads `data.broadcasts[broadcastId]` on a parsed JSON object, a lookup that also follows the object's prototype chain (src/broadcast-resolver.ts:85, src/status-monitor.ts:51). Ids such as `constructor`, `toString` or `valueOf` pass `extractBroadcastId` and there find an inherited function: the source's resolve then returns ok with undefined fields, and its status poll reports an undefined state, where the model reports not found or no observation. Inherited property names are not modelled.
- Results.Unwrap: an error result makes the source throw. The model makes that case a precondition instead.
- JSON and base64url decoding, `new Date(start).getTime()`, and the structure of JSON bodies are parameters or records of the fields read. A body that decodes but lacks fields is not modelled.
- The try/catch around the status monitor's and chat poller's polls is covered by the `Failed` outcome. The catch in `handleMessages` has no counterpart, because parsing and sending never throw in the model.
- `logConfig`, the logger, the viewer-count HTTP server, the extension's service worker, content scripts, popup and badge controller are not part of the core and are not modelled.
- The HTTP method, headers and JSON encoding of request bodies are not modelled. Request URLs are modelled for every fetch. Request bodies are modelled as the chat-history request's fields and the delivery payload. The token exchange's body, the chat token, is not modelled: `AcquireToken` only records that the exchange URL is requested.
- A 2xx reply whose body is not valid JSON is not modelled. In the source, `response.json()` runs outside the try blocks (src/token-provider.ts:72 and 104, src/broadcast-resolver.ts:84, src/service-resolver.ts:38), so the returned promise rejects instead of yielding a result. In the model, `Outcome.Replied` always carries a decoded body.
- The browser reports a storage change only for keys whose value actually changed. `Settings.ChangedKeys` models that rule; the browser's delivery of the event is not modelled.

## Findings

| source | as written | input that shows it | evidently intended | confidence | as-written member | corrected member |
|---|---|---|---|---|---|---|
| src/chat-poller.ts:69-81 | on a 429 reply the poller clears the current timer if there is one and then always starts a new interval timer | start, then stop while a request is in flight, and that request answers 429: a new timer is armed and polling resumes after `stop` | a rate-limit reply re-arms the timer only while the poller is running, so `stop` is final | not executed | ChatPoller.TickAsWritten; ChatPoller.AsWrittenRateLimitRestartsStoppedPoller | ChatPoller.Tick; ChatPoller.StoppedStaysStopped |

=== FILE: broadcast_resolver.dfy ===
/** Broadcast-id extraction and broadcast lookup (src/broadcast-resolver.ts).
    The URL pattern `^https?://(?:x\.com|twitter\.com)/i/broadcasts/([A-Za-z0-9_]+)`
    is spelled out as its four literal prefixes followed by a greedy
    identifier run; the lookup's fetch is an outcome parameter and the
    conversion of the `start` timestamp to milliseconds is a parameter. */
module BroadcastResolver {
  import opened Results
  import opened Types
  import Text

  /** The four strings the URL pattern accepts before the captured id. */
  const UrlPrefixes: seq<string> := [
    "http://x.com/i/broadcasts/",
    "https://x.com/i/broadcasts/",
    "http://twitter.com/i/broadcasts/",
    "https://twitter.com/i/broadcasts/"
  ]

  /** The prefix `s` starts with and the id run after it is non-empty. */
  predicate MatchesAt(s: string, i: nat)
    requires i < |UrlPrefixes|
  {
    UrlPrefixes[i] <= s && Text.IdRun(s[|UrlPrefixes[i]|..]) != []
  }

  /** The group the URL pattern captures, if it matches at the start of `s`. */
  function MatchUrl(s: string): (r: Option<string>)
    ensures r.None? ==> forall i :: 0 <= i < |UrlPrefixes| ==> !MatchesAt(s, i)
    ensures r.Some? ==>
      exists i :: 0 <= i < |UrlPrefixes| && MatchesAt(s, i) && r.value == Text.IdRun(s[|UrlPrefixes[i]|..])
  {
    if MatchesAt(s, 0) then Some(Text.IdRun(s[|UrlPrefixes[0]|..]))
    else if MatchesAt(s, 1) then Some(Text.IdRun(s[|UrlPrefixes[1]|..]))
    else if MatchesAt(s, 2) then Some(Text.IdRun(s[|UrlPrefixes[2]|..]))
    else if MatchesAt(s, 3) then Some(Text.IdRun(s[|UrlPrefixes[3]|..]))
    else None
  }

  /** No string starts with two different URL prefixes: they differ in the
      scheme (character 4) or in the host (characters 7 and 8). */
  lemma PrefixesExclusive(s: string, i: nat, j: nat)
    requires i < |UrlPrefixes| && j < |UrlPrefixes|
    requires UrlPrefixes[i] <= s && UrlPrefixes[j] <= s
    ensures i == j
  {
    var p, q := UrlPrefixes[i], UrlPrefixes[j];
    assert p[4] == s[4] == q[4];
    assert p[7] == s[7] == q[7];
    assert p[8] == s[8] == q[8];
  }

  /** Whichever prefix a URL starts with, the match captures the id run after it. */
  lemma MatchUrlAt(s: string, i: nat)
    requires i < |UrlPrefixes| && MatchesAt(s, i)
    ensures MatchUrl(s) == Some(Text.IdRun(s[|UrlPrefixes[i]|..]))
  {
    var j :| 0 <= j < |UrlPrefixes| && MatchesAt(s, j) &&
      MatchUrl(s).value == Text.IdRun(s[|UrlPrefixes[j]|..]);
    assert MatchesAt(s, j);
    assert UrlPrefixes[j] <= s;
    PrefixesExclusive(s, i, j);
  }

  /** `extractBroadcastId`: the id captured from a broadcast URL, or the input
      itself when it is a bare identifier; anything else is an invalid URL. */
  function ExtractBroadcastId(urlOrId: string): (r: Result<string, BroadcastError>)
    ensures r.Err? ==> r.error == InvalidUrl(urlOrId)
    ensures r.Ok? ==> r.value != [] && Text.AllIdChars(r.value)
    ensures r.Ok? <==>
      (exists i :: 0 <= i < |UrlPrefixes| && MatchesAt(urlOrId, i)) || (urlOrId != [] && Text.AllIdChars(urlOrId))
    ensures MatchUrl(urlOrId).Some? ==> r == Ok(MatchUrl(urlOrId).value)
    ensures MatchUrl(urlOrId).None? && urlOrId != [] && Text.AllIdChars(urlOrId) ==> r == Ok(urlOrId)
  {
    if urlOrId == [] then Err(InvalidUrl(urlOrId))
    else
      match MatchUrl(urlOrId)
      case Some(id) => Ok(id)
      case None =>
        if Text.AllIdChars(urlOrId) then Ok(urlOrId) else Err(InvalidUrl(urlOrId))
  }

  /** Every URL prefix has its scheme's ':' at position 4 or 5. */
  lemma PrefixHasColon(i: nat)
    requires i < |UrlPrefixes|
    ensures |UrlPrefixes[i]| > 5 && (UrlPrefixes[i][4] == ':' || UrlPrefixes[i][5] == ':')
  {
  }

  /** No identifier string begins with a URL prefix (each holds a ':'). */
  lemma IdStringIsNotUrl(s: string)
    requires Text.AllIdChars(s)
    ensures MatchUrl(s).None?
  {
    forall i | 0 <= i < |UrlPrefixes| ensures !(UrlPrefixes[i] <= s) {
      PrefixHasColon(i);
    }
  }

  /** Extracting from an extracted id gives the same id back. */
  lemma ExtractIsIdempotent(urlOrId: string)
    requires ExtractBroadcastId(urlOrId).Ok?
    ensures ExtractBroadcastId(ExtractBroadcastId(urlOrId).value) == ExtractBroadcastId(urlOrId)
  {
    IdStringIsNotUrl(ExtractBroadcastId(urlOrId).value);
  }

  /** A broadcast URL followed by anything that does not continue the id
      yields exactly that id. */
  lemma ExtractFromUrl(i: nat, id: string, rest: string)
    requires i < |UrlPrefixes|
    requires id != [] && Text.AllIdChars(id)
    requires rest != [] ==> !Text.IsIdChar(rest[0])
    ensures ExtractBroadcastId(UrlPrefixes[i] + id + rest) == Ok(id)
  {
    var s := UrlPrefixes[i] + id + rest;
    assert s[|UrlPrefixes[i]|..] == id + rest;
    Text.IdRunUnique(id + rest, id);
    assert MatchesAt(s, i);
    MatchUrlAt(s, i);
  }

  /** A bare identifier is accepted unchanged. */
  lemma ExtractBareId(id: string)
    requires id != [] && Text.AllIdChars(id)
    ensures ExtractBroadcastId(id) == Ok(id)
  {
    IdStringIsNotUrl(id);
  }

  /** One broadcast record of the show response. */
  datatype ShowEntry = ShowEntry(
    id: string,
    mediaKey: string,
    title: string,
    state: string,
    userDisplayName: string,
    username: string,
    start: string
  )

  /** The `broadcasts` object of the show response, keyed by broadcast id. */
  type ShowBody = map<string, ShowEntry>

  /** `new Date(start).getTime()`. */
  type TimeParser = string -> int

  /** The outcome of `resolve` and the URLs it fetched. */
  datatype Resolution = Resolution(result: Result<BroadcastInfo, BroadcastError>, requests: seq<string>)

  function ShowUrl(broadcastId: string): string {
    "https://api.x.com/1.1/broadcasts/show.json?ids=" + broadcastId + "&include_events=false"
  }

  /** `resolve`: extract the id, look the broadcast up, refuse ended ones. */
  function Resolve(urlOrId: string, outcome: Outcome<ShowBody>, toMillis: TimeParser): (r: Resolution)
    ensures ExtractBroadcastId(urlOrId).Err? ==>
      r == Resolution(Err(InvalidUrl(urlOrId)), [])
    ensures ExtractBroadcastId(urlOrId).Ok? ==>
      var id := ExtractBroadcastId(urlOrId).value;
      && r.requests == [ShowUrl(id)]
      && (outcome.Failed? ==> r.result == Err(BroadcastApiError(0, outcome.message)))
      && (outcome.Replied? && !IsOkStatus(outcome.status) ==>
            r.result == Err(BroadcastApiError(outcome.status, outcome.statusText)))
      && (Succeeded(outcome) && id !in outcome.body ==> r.result == Err(NotFound(id)))
      && (Succeeded(outcome) && id in outcome.body && outcome.body[id].state == "ENDED" ==>
            r.result == Err(AlreadyEnded(id)))
      && (r.result.Ok? <==> Succeeded(outcome) && id in outcome.body && outcome.body[id].state != "ENDED")
      && (r.result.Ok? ==>
            var e := outcome.body[id];
            r.result.value == BroadcastInfo(e.id, e.mediaKey, e.title, e.state, e.username,
                                            e.userDisplayName, toMillis(e.start)))
  {
    match ExtractBroadcastId(urlOrId)
    case Err(e) => Resolution(Err(e), [])
    case Ok(id) =>
      var requests := [ShowUrl(id)];
      match outcome
      case Failed(_, message) => Resolution(Err(BroadcastApiError(0, message)), requests)
      case Replied(status, statusText, _, body) =>
        if !IsOkStatus(status) then Resolution(Err(BroadcastApiError(status, statusText)), requests)
        else if id !in body then Resolution(Err(NotFound(id)), requests)
        else
          var e := body[id];
          if e.state == "ENDED" then Resolution(Err(AlreadyEnded(id)), requests)
          else Resolution(Ok(BroadcastInfo(e.id, e.mediaKey, e.title, e.state, e.username,
                                           e.userDisplayName, toMillis(e.start))), requests)
  }
}

=== FILE: buffered_client.dfy ===
/** The delivery client with retries and a bounded overflow buffer
    (src/buffered-onecomme-client.ts). The inner client is an oracle: for one
    operation, `inner(k)` is what its k-th call to the inner client returns. */
module BufferedClient {
  import opened Results
  import opened Types
  import opened OneCommeClient

  const DefaultMaxBufferSize: nat := 1000
  const DefaultRetryDelaysMs: seq<int> := [1000, 2000, 4000]

  datatype Options = Options(maxBufferSize: nat, retryDelaysMs: seq<int>)

  /** The client's state: the connection flag and the FIFO buffer, oldest first. */
  datatype Client = Client(connected: bool, buffer: seq<ParsedComment>)

  type Inner = nat -> SendResult

  function DefaultOptions(): Options {
    Options(DefaultMaxBufferSize, DefaultRetryDelaysMs)
  }

  /** A fresh client: connected, empty buffer. */
  function Create(): (c: Client)
    ensures c.connected && c.buffer == []
  {
    Client(true, [])
  }

  /** `invalid_service_id` and `validation_error` are configuration-class
      errors and are never retried. */
  predicate IsConfigError(e: SendError) {
    e.InvalidServiceId? || e.ValidationError?
  }

  /** An attempt whose outcome ends the retry loop. */
  predicate Stops(r: SendResult) {
    r.Ok? || IsConfigError(r.error)
  }


  /** The standing invariant of a client built with `opts`. */
  predicate Valid(opts: Options, c: Client) {
    && |c.buffer| <= opts.maxBufferSize
    && (c.connected ==> c.buffer == [])
    && (opts.maxBufferSize >= 1 && !c.connected ==> c.buffer != [])
  }

  // ------------------------------------------------------------------ buffer

  /** `addToBuffer`: append, then drop the oldest entry when over capacity. */
  function AddToBuffer(buffer: seq<ParsedComment>, c: ParsedComment, maxSize: nat): (r: seq<ParsedComment>)
    ensures |buffer| <= maxSize ==> |r| <= maxSize
    ensures |buffer| < maxSize ==> r == buffer + [c]
    ensures |buffer| == maxSize >= 1 ==> r == buffer[1..] + [c]
    ensures maxSize >= 1 && |buffer| <= maxSize ==> r != [] && r[|r| - 1] == c
  {
    var pushed := buffer + [c];
    if |pushed| > maxSize then pushed[1..] else pushed
  }

  // ------------------------------------------------------------------ retries

  /** What `sendWithRetry` did: its result, how many times it called the
      inner client, and the delays it asked for, in order. */
  datatype RetryRun = RetryRun(result: SendResult, calls: nat, delays: seq<int>)

  /** The retry loop, entered after attempt `i` failed without stopping. */
  function RetryLoop(delays: seq<int>, inner: Inner, i: nat): (run: RetryRun)
    requires i <= |delays| && !Stops(inner(i))
    ensures i + 1 <= run.calls <= |delays| + 1
    ensures run.delays == delays[..run.calls - 1]
    ensures forall k :: i <= k < run.calls - 1 ==> !Stops(inner(k))
    ensures Stops(inner(run.calls - 1)) ==> run.result == inner(run.calls - 1)
    ensures !Stops(inner(run.calls - 1)) ==> run.calls == |delays| + 1 && run.result == inner(0)
    decreases |delays| - i
  {
    if i == |delays| then
      RetryRun(inner(0), |delays| + 1, delays)
    else
      var r := inner(i + 1);
      if Stops(r) then RetryRun(r, i + 2, delays[..i + 1])
      else RetryLoop(delays, inner, i + 1)
  }

  /** `sendWithRetry`: one immediate attempt, then one retry after each delay
      until an attempt succeeds or fails with a configuration error. When
      every attempt fails otherwise, the FIRST attempt's error is returned. */
  function SendWithRetry(delays: seq<int>, inner: Inner): (run: RetryRun)
    ensures 1 <= run.calls <= |delays| + 1
    ensures run.delays == delays[..run.calls - 1]
    ensures forall k :: 0 <= k < run.calls - 1 ==> !Stops(inner(k))
    ensures Stops(inner(run.calls - 1)) ==> run.result == inner(run.calls - 1)
    ensures !Stops(inner(run.calls - 1)) ==> run.calls == |delays| + 1 && run.result == inner(0)
  {
    var r := inner(0);
    if Stops(r) then RetryRun(r, 1, []) else RetryLoop(delays, inner, 0)
  }

  /** A first attempt that succeeds makes exactly one call and asks for no delay. */
  lemma FirstSuccessNoRetry(delays: seq<int>, inner: Inner)
    requires inner(0) == Ok(())
    ensures SendWithRetry(delays, inner) == RetryRun(Ok(()), 1, [])
  {
  }

  /** A configuration error is returned by the attempt that produced it, and
      no later attempt is made. */
  lemma ConfigErrorNotRetried(delays: seq<int>, inner: Inner, k: nat)
    requires k <= |delays|
    requires inner(k).Err? && IsConfigError(inner(k).error)
    requires forall j :: 0 <= j < k ==> !Stops(inner(j))
    ensures SendWithRetry(delays, inner).calls == k + 1
    ensures SendWithRetry(delays, inner).result == inner(k)
  {
  }

  /** With the default delays and every attempt failing with a retryable
      error, four attempts are made and 1 s, 2 s, 4 s are requested. */
  lemma DefaultDelaysWhenAllFail(inner: Inner)
    requires forall k :: 0 <= k <= 3 ==> !Stops(inner(k))
    ensures SendWithRetry(DefaultRetryDelaysMs, inner).calls == 4
    ensures SendWithRetry(DefaultRetryDelaysMs, inner).delays == [1000, 2000, 4000]
    ensures SendWithRetry(DefaultRetryDelaysMs, inner).result == inner(0)
  {
    var run := SendWithRetry(DefaultRetryDelaysMs, inner);
    assert !Stops(inner(run.calls - 1));
  }

  // ------------------------------------------------------------------ send

  /** What `send` did: the new state, the result for the caller, and the
      inner calls and delays it made. */
  datatype SendStep = SendStep(client: Client, result: SendResult, innerCalls: nat, delays: seq<int>)

  /** `send`: while disconnected, buffer without any call; otherwise send
      with retries, and switch to buffering when the retries end in
      `connection_refused`. */
  function Send(opts: Options, c: Client, comment: ParsedComment, inner: Inner): (s: SendStep)
    ensures !c.connected ==>
      s.innerCalls == 0 && s.result == Ok(()) &&
      s.client == Client(false, AddToBuffer(c.buffer, comment, opts.maxBufferSize))
    ensures s.result != Err(ConnectionRefused)
    ensures s.result.Err? ==> s.client == c && c.connected
    ensures c.connected && s.result.Ok? && !s.client.connected ==>
      SendWithRetry(opts.retryDelaysMs, inner).result == Err(ConnectionRefused) &&
      s.client.buffer == AddToBuffer(c.buffer, comment, opts.maxBufferSize)
    ensures c.connected && s.client.connected ==> s.client == c
    ensures s.innerCalls <= |opts.retryDelaysMs| + 1
    ensures c.connected ==>
      var run := SendWithRetry(opts.retryDelaysMs, inner);
      && s.innerCalls == run.calls && s.delays == run.delays
      && (run.result != Err(ConnectionRefused) ==> s.result == run.result && s.client == c)
      && (run.result == Err(ConnectionRefused) ==>
            s.result == Ok(()) && s.client == Client(false, AddToBuffer(c.buffer, comment, opts.maxBufferSize)))
  {
    if !c.connected then
      SendStep(Client(false, AddToBuffer(c.buffer, comment, opts.maxBufferSize)), Ok(()), 0, [])
    else
      var run := SendWithRetry(opts.retryDelaysMs, inner);
      if run.result.Ok? then
        SendStep(c, run.result, run.calls, run.delays)
      else if run.result.error == ConnectionRefused then
        SendStep(Client(false, AddToBuffer(c.buffer, comment, opts.maxBufferSize)), Ok(()), run.calls, run.delays)
      else
        SendStep(c, run.result, run.calls, run.delays)
  }

  /** `send` keeps the client's invariant. */
  lemma SendPreservesValid(opts: Options, c: Client, comment: ParsedComment, inner: Inner)
    requires Valid(opts, c)
    ensures Valid(opts, Send(opts, c, comment, inner).client)
  {
  }

  /** A connection refused on every attempt is absorbed: the caller sees ok,
      the client goes disconnected, and the buffer grows by exactly one. */
  lemma UnreachableReceiverBuffers(opts: Options, c: Client, comment: ParsedComment, inner: Inner)
    requires Valid(opts, c) && c.connected && opts.maxBufferSize >= 1
    requires inner(0) == Err(ConnectionRefused)
    requires forall k :: 1 <= k <= |opts.retryDelaysMs| ==> !Stops(inner(k))
    ensures Send(opts, c, comment, inner).result == Ok(())
    ensures !Send(opts, c, comment, inner).client.connected
    ensures Send(opts, c, comment, inner).client.buffer == c.buffer + [comment]
  {
    var run := SendWithRetry(opts.retryDelaysMs, inner);
    assert !Stops(inner(run.calls - 1));
  }

  // ------------------------------------------------------------------ flush

  /** What `flushBuffer` did: the new state and the comments handed to the
      inner client, in order. */
  datatype FlushStep = FlushStep(client: Client, sent: seq<ParsedComment>)

  /** The drain loop after the first `i` entries were sent successfully. */
  function FlushFrom(buffer: seq<ParsedComment>, inner: Inner, i: nat): (f: FlushStep)
    requires i <= |buffer|
    requires forall k :: 0 <= k < i ==> inner(k).Ok?
    ensures i <= |f.sent| <= |buffer| && f.sent == buffer[..|f.sent|]
    ensures forall k :: 0 <= k < |f.sent| && k < |buffer| && f.client.connected ==> inner(k).Ok?
    ensures f.client.connected <==> forall k :: 0 <= k < |buffer| ==> inner(k).Ok?
    ensures f.client.connected ==> f.client.buffer == [] && |f.sent| == |buffer|
    ensures !f.client.connected ==>
      |f.sent| >= i + 1 && inner(|f.sent| - 1).Err? &&
      (forall k :: 0 <= k < |f.sent| - 1 ==> inner(k).Ok?) &&
      f.client.buffer == buffer[|f.sent| - 1..]
    decreases |buffer| - i
  {
    if i == |buffer| then FlushStep(Client(true, []), buffer)
    else if inner(i).Err? then FlushStep(Client(false, buffer[i..]), buffer[..i + 1])
    else FlushFrom(buffer, inner, i + 1)
  }

  /** `flushBuffer`: nothing on an empty buffer; otherwise one unretried send
      per entry in FIFO order, stopping at the first failure. */
  function Flush(c: Client, inner: Inner): (f: FlushStep)
    ensures c.buffer == [] ==> f == FlushStep(c, [])
    ensures |f.sent| <= |c.buffer| && f.sent == c.buffer[..|f.sent|]
    ensures c.buffer != [] ==>
      (f.client.connected <==> forall k :: 0 <= k < |c.buffer| ==> inner(k).Ok?)
    ensures c.buffer != [] && f.client.connected ==> f.client.buffer == [] && f.sent == c.buffer
    ensures c.buffer != [] && !f.client.connected ==>
      f.sent != [] && inner(|f.sent| - 1).Err? &&
      (forall k :: 0 <= k < |f.sent| - 1 ==> inner(k).Ok?) &&
      f.client.buffer == c.buffer[|f.sent| - 1..]
  {
    if c.buffer == [] then FlushStep(c, []) else FlushFrom(c.buffer, inner, 0)
  }

  /** `flushBuffer` keeps the client's invariant. */
  lemma FlushPreservesValid(opts: Options, c: Client, inner: Inner)
    requires Valid(opts, c)
    ensures Valid(opts, Flush(c, inner).client)
  {
  }

  /** One call on the client, with the inner client's answers for it. */
  datatype Call = SendCall(comment: ParsedComment, inner: Inner) | FlushCall(inner: Inner)

  /** The client after the calls, oldest first, starting from a fresh one. */
  function Replay(opts: Options, calls: seq<Call>): Client
    decreases |calls|
  {
    if calls == [] then Create()
    else
      var c := Replay(opts, calls[..|calls| - 1]);
      match calls[|calls| - 1]
      case SendCall(comment, inner) => Send(opts, c, comment, inner).client
      case FlushCall(inner) => Flush(c, inner).client
  }

  /** In every state the client can reach, the buffer stays within its bound
      and, with room for at least one comment, the client is connected
      exactly when its buffer is empty. */
  lemma {:induction false} ReachableConnectedIffEmpty(opts: Options, calls: seq<Call>)
    requires opts.maxBufferSize >= 1
    ensures var c := Replay(opts, calls);
      |c.buffer| <= opts.maxBufferSize && (c.connected <==> c.buffer == [])
    decreases |calls|
  {
    ReachableValid(opts, calls);
  }

  lemma {:induction false} ReachableValid(opts: Options, calls: seq<Call>)
    ensures Valid(opts, Replay(opts, calls))
    decreases |calls|
  {
    if calls != [] {
      var prefix := calls[..|calls| - 1];
      ReachableValid(opts, prefix);
      var c := Replay(opts, prefix);
      match calls[|calls| - 1]
      case SendCall(comment, inner) => SendPreservesValid(opts, c, comment, inner);
      case FlushCall(inner) => FlushPreservesValid(opts, c, inner);
    }
  }
}

=== FILE: chat_poller.dfy ===
/** The cursor-based chat-history poller (src/chat-poller.ts). Timer ticks are
    explicit steps: each tick is the completion of one history request, given
    the outcome of that request, and yields the callbacks it fires. */
module ChatPoller {
  import opened Results
  import opened Types

  const DefaultPollIntervalMs: int := 3000
  const HistoryLimit: int := 1000
  const HistoryPath: string := "/chatapi/v1/history"

  /** The decoded body of a successful history response. */
  datatype HistoryBody = HistoryBody(messages: seq<RawChatMessage>, cursor: string)

  /** One history request: the URL it is posted to and the fields of its
      JSON body; `since` is omitted when `None`. */
  datatype HistoryRequest = HistoryRequest(
    url: string,
    accessToken: string,
    cursor: string,
    limit: int,
    since: Option<int>,
    quickGet: bool)

  /** The poller's state: the configured base interval, the current interval,
      the stored cursor, and whether its repeating timer is armed. */
  datatype Poller = Poller(baseInterval: int, interval: int, cursor: string, running: bool)

  /** A callback fired by a tick. */
  datatype Event = TokenExpired | MessagesReceived(messages: seq<RawChatMessage>)

  datatype TickResult = TickResult(poller: Poller, events: seq<Event>)

  type HistoryOutcome = Outcome<HistoryBody>

  /** `createChatPoller`: the interval option defaults to 3000 ms; the cursor
      starts empty and no timer runs. */
  function Create(pollIntervalMs: Option<int>): (p: Poller)
    ensures p.cursor == "" && !p.running
    ensures p.interval == p.baseInterval
    ensures pollIntervalMs.None? ==> p.baseInterval == DefaultPollIntervalMs
    ensures pollIntervalMs.Some? ==> p.baseInterval == pollIntervalMs.value
  {
    var base := if pollIntervalMs.Some? then pollIntervalMs.value else DefaultPollIntervalMs;
    Poller(base, base, "", false)
  }

  /** `start`: the interval goes back to the base one; the cursor is kept. */
  function Start(p: Poller): (q: Poller)
    ensures q.running && q.interval == p.baseInterval
    ensures q.cursor == p.cursor && q.baseInterval == p.baseInterval
  {
    p.(interval := p.baseInterval, running := true)
  }

  /** `stop`: the timer is cleared; cursor and interval are kept. */
  function Stop(p: Poller): (q: Poller)
    ensures !q.running
    ensures q.cursor == p.cursor && q.interval == p.interval && q.baseInterval == p.baseInterval
  {
    p.(running := false)
  }

  /** `getCursor`: the cursor the next history request carries; while it is
      empty the request asks for history from the start. */
  function GetCursor(p: Poller): (c: string)
    ensures forall cr :: Request(p, cr).cursor == c && (Request(p, cr).since.Some? <==> c == "")
  {
    p.cursor
  }

  /** The request one tick sends: the stored cursor, a fixed page size,
      `since = 0` only while no cursor is stored, and no quick fetch. */
  function Request(p: Poller, credentials: ChatCredentials): (r: HistoryRequest)
    ensures r.url == credentials.endpoint + HistoryPath
    ensures r.accessToken == credentials.accessToken
    ensures r.cursor == p.cursor && r.limit == 1000 && !r.quickGet
    ensures r.since.Some? <==> p.cursor == ""
    ensures r.since.Some? ==> r.since.value == 0
  {
    HistoryRequest(credentials.endpoint + HistoryPath, credentials.accessToken, p.cursor, HistoryLimit,
                   if p.cursor == "" then Some(0) else None, false)
  }

  predicate IsStatus(o: HistoryOutcome, status: int) {
    o.Replied? && o.status == status
  }

  /** The tick body exactly as the source writes it: the rate-limit branch
      re-arms a timer unconditionally, so a 429 that completes after `stop`
      starts polling again. */
  function TickAsWritten(p: Poller, o: HistoryOutcome): (t: TickResult)
    ensures IsStatus(o, 429) ==> t.poller.running
  {
    match o
    case Failed(_, _) => TickResult(p, [])
    case Replied(status, _, _, body) =>
      if !IsOkStatus(status) then
        if status == 401 then TickResult(p, [TokenExpired])
        else if status == 429 then TickResult(p.(interval := p.interval * 2, running := true), [])
        else TickResult(p, [])
      else
        var cursor := if body.cursor != "" then body.cursor else p.cursor;
        TickResult(p.(cursor := cursor),
                   if |body.messages| > 0 then [MessagesReceived(body.messages)] else [])
  }

  /** The tick body with the rate-limit branch re-arming the timer only when
      one is armed; otherwise identical to `TickAsWritten`. */
  function Tick(p: Poller, o: HistoryOutcome): (t: TickResult)
    ensures t.poller.running == p.running && t.poller.baseInterval == p.baseInterval
    ensures !IsStatus(o, 429) ==> t == TickAsWritten(p, o)
    ensures IsStatus(o, 429) ==> t.poller == TickAsWritten(p, o).poller.(running := p.running)
    // 401: only the token-expired callback
    ensures IsStatus(o, 401) ==> t == TickResult(p, [TokenExpired])
    // 429: the interval doubles, nothing else changes
    ensures IsStatus(o, 429) ==> t.events == [] && t.poller == p.(interval := 2 * p.interval)
    // other errors and thrown exceptions: nothing at all
    ensures !Succeeded(o) && !IsStatus(o, 401) && !IsStatus(o, 429) ==> t == TickResult(p, [])
    // success: a non-empty cursor replaces the stored one; a non-empty list
    // is passed once
    ensures Succeeded(o) ==>
      t.poller.interval == p.interval &&
      t.poller.cursor == (if o.body.cursor == "" then p.cursor else o.body.cursor) &&
      t.events == (if o.body.messages == [] then [] else [MessagesReceived(o.body.messages)])
  {
    var t := TickAsWritten(p, o);
    if IsStatus(o, 429) then t.(poller := t.poller.(running := p.running)) else t
  }

  /** Ticks over a sequence of outcomes, collecting the fired callbacks. */
  function Run(p: Poller, outcomes: seq<HistoryOutcome>): TickResult
  {
    if outcomes == [] then TickResult(p, [])
    else
      var last := outcomes[|outcomes| - 1];
      var prev := Run(p, outcomes[..|outcomes| - 1]);
      var t := Tick(prev.poller, last);
      TickResult(t.poller, prev.events + t.events)
  }

  function Pow2(k: nat): (r: int)
    ensures r >= 1
  {
    if k == 0 then 1 else 2 * Pow2(k - 1)
  }

  /** Number of rate-limit responses among the outcomes. */
  function RateLimits(outcomes: seq<HistoryOutcome>): nat {
    if outcomes == [] then 0
    else RateLimits(outcomes[..|outcomes| - 1]) + (if IsStatus(outcomes[|outcomes| - 1], 429) then 1 else 0)
  }

  /** The cursor of the last successful response that carried a non-empty
      one, or `initial` when there is none. */
  function LatestCursor(outcomes: seq<HistoryOutcome>, initial: string): string {
    if outcomes == [] then initial
    else
      var o := outcomes[|outcomes| - 1];
      if Succeeded(o) && o.body.cursor != "" then o.body.cursor
      else LatestCursor(outcomes[..|outcomes| - 1], initial)
  }

  /** The messages of every successful response, in order. */
  function AllMessages(outcomes: seq<HistoryOutcome>): seq<RawChatMessage> {
    if outcomes == [] then []
    else
      var o := outcomes[|outcomes| - 1];
      AllMessages(outcomes[..|outcomes| - 1]) + (if Succeeded(o) then o.body.messages else [])
  }

  /** The messages carried by the fired callbacks, in order. */
  function Delivered(events: seq<Event>): seq<RawChatMessage> {
    if events == [] then []
    else
      var e := events[|events| - 1];
      Delivered(events[..|events| - 1]) + (if e.MessagesReceived? then e.messages else [])
  }

  lemma DeliveredAppend(a: seq<Event>, b: seq<Event>)
    ensures Delivered(a + b) == Delivered(a) + Delivered(b)
    decreases |b|
  {
    if b == [] {
      assert a + b == a;
    } else {
      assert (a + b)[..|a + b| - 1] == a + b[..|b| - 1];
      DeliveredAppend(a, b[..|b| - 1]);
    }
  }

  /** Over any run of ticks: after k rate-limit responses the interval is
      the starting one times 2^k; the cursor is that of the last successful
      response with a non-empty cursor; and the timer's state never changes. */
  lemma {:induction false} RunState(p: Poller, outcomes: seq<HistoryOutcome>)
    ensures Run(p, outcomes).poller.interval == p.interval * Pow2(RateLimits(outcomes))
    ensures Run(p, outcomes).poller.cursor == LatestCursor(outcomes, p.cursor)
    ensures Run(p, outcomes).poller.running == p.running
    ensures Run(p, outcomes).poller.baseInterval == p.baseInterval
  {
    if outcomes != [] {
      var init := outcomes[..|outcomes| - 1];
      var o := outcomes[|outcomes| - 1];
      RunState(p, init);
      if IsStatus(o, 429) {
        assert Pow2(RateLimits(outcomes)) == 2 * Pow2(RateLimits(init));
      }
    }
  }

  /** Over any run of ticks the callbacks deliver exactly the messages of the
      successful responses, in order, and never an empty list. */
  lemma {:induction false} RunEvents(p: Poller, outcomes: seq<HistoryOutcome>)
    ensures Delivered(Run(p, outcomes).events) == AllMessages(outcomes)
    ensures forall i :: 0 <= i < |Run(p, outcomes).events| && Run(p, outcomes).events[i].MessagesReceived? ==>
      Run(p, outcomes).events[i].messages != []
  {
    if outcomes != [] {
      var init := outcomes[..|outcomes| - 1];
      var o := outcomes[|outcomes| - 1];
      RunEvents(p, init);
      var prev := Run(p, init);
      var t := Tick(prev.poller, o);
      DeliveredAppend(prev.events, t.events);
      if Succeeded(o) && o.body.messages != [] {
        assert Delivered(t.events) == o.body.messages by {
          assert t.events[..0] == [];
        }
      }
      var all := prev.events + t.events;
      forall i | 0 <= i < |all| && all[i].MessagesReceived?
        ensures all[i].messages != []
      {
        if i >= |prev.events| {
          assert all[i] == t.events[i - |prev.events|];
        }
      }
    }
  }

  /** Over any run of ticks: after k rate-limit responses the interval is
      the starting one times 2^k; the cursor is that of the last successful
      response with a non-empty cursor; the callbacks deliver exactly the
      messages of the successful responses, in order, never an empty list;
      and the timer's state never changes. */
  lemma RunSummary(p: Poller, outcomes: seq<HistoryOutcome>)
    ensures Run(p, outcomes).poller.interval == p.interval * Pow2(RateLimits(outcomes))
    ensures Run(p, outcomes).poller.cursor == LatestCursor(outcomes, p.cursor)
    ensures Delivered(Run(p, outcomes).events) == AllMessages(outcomes)
    ensures forall i :: 0 <= i < |Run(p, outcomes).events| && Run(p, outcomes).events[i].MessagesReceived? ==>
      Run(p, outcomes).events[i].messages != []
    ensures Run(p, outcomes).poller.running == p.running
    ensures Run(p, outcomes).poller.baseInterval == p.baseInterval
  {
    RunState(p, outcomes);
    RunEvents(p, outcomes);
  }

  /** After `start`, k rate-limit responses put the interval at base * 2^k. */
  lemma RateLimitBackoffFromStart(p: Poller, outcomes: seq<HistoryOutcome>)
    ensures Run(Start(p), outcomes).poller.interval == p.baseInterval * Pow2(RateLimits(outcomes))
    ensures Run(Start(p), outcomes).poller.cursor == LatestCursor(outcomes, p.cursor)
  {
    RunSummary(Start(p), outcomes);
  }

  /** Once stopped, no outcome of an in-flight request re-arms the timer. */
  lemma StoppedStaysStopped(p: Poller, outcomes: seq<HistoryOutcome>)
    ensures !Run(Stop(p), outcomes).poller.running
  {
    RunSummary(Stop(p), outcomes);
  }

  /** The source's tick does re-arm a stopped poller: a 429 that completes
      after `stop` leaves the timer running again. */
  lemma AsWrittenRateLimitRestartsStoppedPoller()
    ensures var p := Stop(Start(Create(None)));
            !p.running && TickAsWritten(p, Replied(429, "Too Many Requests", "", HistoryBody([], ""))).poller.running
  {
  }
}

=== FILE: cli_config.dfy ===
/** Command-line parsing and validation (src/cli-config.ts). */
module CliConfig {
  import opened Results
  import Text
  import BroadcastResolver

  const DefaultHost: string := "localhost"
  const DefaultPort: int := 11180
  const DefaultIntervalMs: int := 3000

  const ServiceIdFlag: string := "--service-id"
  const HostFlag: string := "--host"
  const PortFlag: string := "--port"
  const IntervalFlag: string := "--interval"

  /** The validated configuration. */
  datatype Config = Config(
    broadcastUrl: string,
    oneCommeHost: string,
    oneCommePort: int,
    oneCommeServiceId: string,
    pollIntervalMs: int
  )

  /** Failure kinds `parseArgs` produces. */
  datatype ConfigError =
    | MissingBroadcastUrl
    | MissingServiceId
    | InvalidUrl(url: string)
    | InvalidPort(port: string)

  /** What the left-to-right scan has collected so far. */
  datatype Scanned = Scanned(
    broadcastUrl: Option<string>,
    serviceId: Option<string>,
    host: string,
    portRaw: Option<string>,
    interval: int
  )

  const Initial: Scanned := Scanned(None, None, DefaultHost, None, DefaultIntervalMs)

  /** An argument that is not an option. */
  predicate IsPositional(arg: string) {
    !("--" <= arg)
  }

  /** `v` directly follows `flag` somewhere in `args`. */
  predicate FollowsFlag(args: seq<string>, flag: string, v: string) {
    exists j :: 1 <= j < |args| && args[j - 1] == flag && args[j] == v
  }

  /** Every collected value comes from `args` in its proper place, and the
      interval is positive. */
  predicate Sound(args: seq<string>, st: Scanned) {
    && st.interval > 0
    && (st.broadcastUrl.Some? ==> st.broadcastUrl.value in args && IsPositional(st.broadcastUrl.value))
    && (st.serviceId.Some? ==> FollowsFlag(args, ServiceIdFlag, st.serviceId.value))
    && (st.host == DefaultHost || FollowsFlag(args, HostFlag, st.host))
    && (st.portRaw.Some? ==> FollowsFlag(args, PortFlag, st.portRaw.value))
  }

  /** One of the four options that take a value. */
  predicate IsValueFlag(arg: string) {
    arg == ServiceIdFlag || arg == HostFlag || arg == PortFlag || arg == IntervalFlag
  }

  /** The arguments do not end in an option still waiting for its value, so
      whatever follows them is scanned on its own. */
  predicate EndsClean(args: seq<string>) {
    args == [] || !IsValueFlag(args[|args| - 1])
  }

  /** The value an option at position `i` consumes: the next argument, when
      there is one. */
  function ValueAt(args: seq<string>, i: nat): (v: Option<string>)
    requires i < |args|
    ensures v.Some? <==> IsValueFlag(args[i]) && i + 1 < |args|
    ensures v.Some? ==> v.value == args[i + 1]
  {
    if IsValueFlag(args[i]) && i + 1 < |args| then Some(args[i + 1]) else None
  }

  /** One iteration of the loop body for the argument `arg` and the value
      it consumes: an option with a value sets its field (an interval only
      when it is a positive number), a positional argument replaces the URL,
      and anything else, such as an option at the very end, is ignored. */
  function Apply(arg: string, value: Option<string>, st: Scanned): (r: Scanned)
    ensures !IsPositional(arg) || value.Some? ==> r.broadcastUrl == st.broadcastUrl
    ensures arg != ServiceIdFlag || value.None? ==> r.serviceId == st.serviceId
    ensures arg != HostFlag || value.None? ==> r.host == st.host
    ensures arg != PortFlag || value.None? ==> r.portRaw == st.portRaw
    ensures arg != IntervalFlag || value.None? ==> r.interval == st.interval
    ensures value.None? && IsPositional(arg) ==> r == st.(broadcastUrl := Some(arg))
    ensures value.Some? && arg == ServiceIdFlag ==> r == st.(serviceId := value)
    ensures value.Some? && arg == HostFlag ==> r == st.(host := value.value)
    ensures value.Some? && arg == PortFlag ==> r == st.(portRaw := value)
    ensures value.Some? && arg == IntervalFlag ==>
      var n := Text.ParseNumber(value.value);
      r == if n.Some? && n.value > 0 then st.(interval := n.value) else st
  {
    match value
    case Some(v) =>
      if arg == ServiceIdFlag then st.(serviceId := Some(v))
      else if arg == HostFlag then st.(host := v)
      else if arg == PortFlag then st.(portRaw := Some(v))
      else if arg == IntervalFlag then
        var n := Text.ParseNumber(v);
        if n.Some? && n.value > 0 then st.(interval := n.value) else st
      else st
    case None =>
      if IsPositional(arg) then st.(broadcastUrl := Some(arg)) else st
  }

  /** Where the loop continues after position `i`. */
  function NextIndex(args: seq<string>, i: nat): (j: nat)
    requires i < |args|
    ensures i < j <= |args|
  {
    if ValueAt(args, i).Some? then i + 2 else i + 1
  }

  /** The `for` loop from position `i`: each argument in turn, an option
      together with the value it consumes. A field whose option (or, for the
      URL, any positional argument) does not occur keeps its value. */
  function Scan(args: seq<string>, i: nat, st: Scanned): (r: Scanned)
    requires i <= |args|
    ensures (forall k :: i <= k < |args| ==> !IsPositional(args[k])) ==> r.broadcastUrl == st.broadcastUrl
    ensures (forall k :: i <= k < |args| ==> args[k] != ServiceIdFlag) ==> r.serviceId == st.serviceId
    ensures (forall k :: i <= k < |args| ==> args[k] != HostFlag) ==> r.host == st.host
    ensures (forall k :: i <= k < |args| ==> args[k] != PortFlag) ==> r.portRaw == st.portRaw
    ensures (forall k :: i <= k < |args| ==> args[k] != IntervalFlag) ==> r.interval == st.interval
    decreases |args| - i
  {
    if i == |args| then st
    else Scan(args, NextIndex(args, i), Apply(args[i], ValueAt(args, i), st))
  }

  /** Every value the scan collects comes from the arguments in its proper
      place, and the interval stays positive. */
  lemma {:induction false} ScanSound(args: seq<string>, i: nat, st: Scanned)
    requires i <= |args| && Sound(args, st)
    ensures Sound(args, Scan(args, i, st))
    decreases |args| - i
  {
    if i < |args| {
      var v := ValueAt(args, i);
      var next := Apply(args[i], v, st);
      if v.Some? {
        assert args[i] == ServiceIdFlag ==> FollowsFlag(args, ServiceIdFlag, args[i + 1]);
        assert args[i] == HostFlag ==> FollowsFlag(args, HostFlag, args[i + 1]);
        assert args[i] == PortFlag ==> FollowsFlag(args, PortFlag, args[i + 1]);
      }
      assert Sound(args, next);
      ScanSound(args, NextIndex(args, i), next);
    }
  }

  /** Scanning after a prefix depends only on what follows it. */
  lemma {:induction false} ScanShift(pre: seq<string>, tail: seq<string>, j: nat, st: Scanned)
    requires j <= |tail|
    ensures Scan(pre + tail, |pre| + j, st) == Scan(tail, j, st)
    decreases |tail| - j
  {
    var all := pre + tail;
    if j < |tail| {
      var i := |pre| + j;
      assert all[i] == tail[j];
      assert j + 1 < |tail| ==> all[i + 1] == tail[j + 1];
      assert ValueAt(all, i) == ValueAt(tail, j);
      assert NextIndex(all, i) == |pre| + NextIndex(tail, j);
      var next := Apply(tail[j], ValueAt(tail, j), st);
      assert Scan(all, i, st) == Scan(all, |pre| + NextIndex(tail, j), next);
      assert Scan(tail, j, st) == Scan(tail, NextIndex(tail, j), next);
      ScanShift(pre, tail, NextIndex(tail, j), next);
    }
  }

  /** The scan is a left-to-right fold: once the first arguments are scanned
      (and none of them is an option left waiting for its value), the rest is
      scanned from the state they produced. */
  lemma {:induction false} ScanAppend(args: seq<string>, tail: seq<string>, i: nat, st: Scanned)
    requires i <= |args| && EndsClean(args)
    ensures Scan(args + tail, i, st) == Scan(tail, 0, Scan(args, i, st))
    decreases |args| - i
  {
    var all := args + tail;
    if i == |args| {
      ScanShift(args, tail, 0, st);
      assert |args| + 0 == |args|;
    } else {
      assert all[i] == args[i];
      assert i + 1 < |args| ==> all[i + 1] == args[i + 1];
      assert i + 1 == |args| ==> !IsValueFlag(args[i]);
      assert ValueAt(all, i) == ValueAt(args, i);
      ScanAppend(args, tail, NextIndex(args, i), Apply(args[i], ValueAt(args, i), st));
    }
  }

  /** The last positional argument wins: one appended after the others
      replaces the URL collected so far and changes nothing else. */
  lemma LastPositionalWins(args: seq<string>, url: string, st: Scanned)
    requires EndsClean(args) && IsPositional(url)
    ensures Scan(args + [url], 0, st) == Scan(args, 0, st).(broadcastUrl := Some(url))
  {
    ScanAppend(args, [url], 0, st);
  }

  /** A later occurrence of an option overrides an earlier one; an interval
      only when it is a positive number. */
  lemma LaterOptionOverrides(args: seq<string>, v: string, st: Scanned)
    requires EndsClean(args)
    ensures Scan(args + [ServiceIdFlag, v], 0, st) == Scan(args, 0, st).(serviceId := Some(v))
    ensures Scan(args + [HostFlag, v], 0, st) == Scan(args, 0, st).(host := v)
    ensures Scan(args + [PortFlag, v], 0, st) == Scan(args, 0, st).(portRaw := Some(v))
    ensures var n := Text.ParseNumber(v);
      Scan(args + [IntervalFlag, v], 0, st) ==
        if n.Some? && n.value > 0 then Scan(args, 0, st).(interval := n.value) else Scan(args, 0, st)
  {
    ScanAppend(args, [ServiceIdFlag, v], 0, st);
    ScanAppend(args, [HostFlag, v], 0, st);
    ScanAppend(args, [PortFlag, v], 0, st);
    ScanAppend(args, [IntervalFlag, v], 0, st);
  }

  /** The arguments after the runtime and the script path. */
  function UserArgs(argv: seq<string>): seq<string> {
    if |argv| >= 2 then argv[2..] else []
  }

  /** `parseArgs`: scan, then check in order the broadcast URL's presence,
      the service id's presence, the URL's form and the port's range. */
  function ParseArgs(argv: seq<string>): (r: Result<Config, ConfigError>)
    ensures r.Ok? ==>
      && BroadcastResolver.ExtractBroadcastId(r.value.broadcastUrl).Ok?
      && 1 <= r.value.oneCommePort <= 65535
      && r.value.pollIntervalMs > 0
      && r.value.broadcastUrl in UserArgs(argv) && IsPositional(r.value.broadcastUrl)
      && FollowsFlag(UserArgs(argv), ServiceIdFlag, r.value.oneCommeServiceId)
      && (r.value.oneCommeHost == DefaultHost || FollowsFlag(UserArgs(argv), HostFlag, r.value.oneCommeHost))
    ensures (forall a :: a in UserArgs(argv) ==> !IsPositional(a)) ==> r == Err(MissingBroadcastUrl)
    ensures (forall v :: !FollowsFlag(UserArgs(argv), ServiceIdFlag, v)) ==>
      r.Err? && (r.error == MissingBroadcastUrl || r.error == MissingServiceId)
    ensures r.Err? && r.error.InvalidUrl? ==> BroadcastResolver.ExtractBroadcastId(r.error.url).Err?
    ensures r.Err? && r.error.InvalidPort? ==>
      var p := Text.ParseNumber(r.error.port);
      p.None? || p.value < 1 || p.value > 65535
    // each outcome is forced by what the scan collected
    ensures var st := Scan(UserArgs(argv), 0, Initial);
      && (r == Err(MissingBroadcastUrl) <==> st.broadcastUrl.None?)
      && (r == Err(MissingServiceId) <==> st.broadcastUrl.Some? && st.serviceId.None?)
      && (r.Err? && r.error.InvalidUrl? <==>
            st.broadcastUrl.Some? && st.serviceId.Some? &&
            BroadcastResolver.ExtractBroadcastId(st.broadcastUrl.value).Err?)
      && (st.broadcastUrl.Some? && st.serviceId.Some? &&
          BroadcastResolver.ExtractBroadcastId(st.broadcastUrl.value).Err? ==>
            r == Err(InvalidUrl(st.broadcastUrl.value)))
      && (r.Err? && r.error.InvalidPort? <==>
            st.broadcastUrl.Some? && st.serviceId.Some? &&
            BroadcastResolver.ExtractBroadcastId(st.broadcastUrl.value).Ok? &&
            st.portRaw.Some? && !(var p := Text.ParseNumber(st.portRaw.value); p.Some? && 1 <= p.value <= 65535))
      && (st.broadcastUrl.Some? && st.serviceId.Some? &&
          BroadcastResolver.ExtractBroadcastId(st.broadcastUrl.value).Ok? &&
          st.portRaw.Some? && !(var p := Text.ParseNumber(st.portRaw.value); p.Some? && 1 <= p.value <= 65535) ==>
            r == Err(InvalidPort(st.portRaw.value)))
      && (r.Ok? <==>
            st.broadcastUrl.Some? && st.serviceId.Some? &&
            BroadcastResolver.ExtractBroadcastId(st.broadcastUrl.value).Ok? &&
            (st.portRaw.None? || var p := Text.ParseNumber(st.portRaw.value); p.Some? && 1 <= p.value <= 65535))
      && (r.Ok? ==>
            && r.value.broadcastUrl == st.broadcastUrl.value
            && r.value.oneCommeServiceId == st.serviceId.value
            && r.value.oneCommeHost == st.host
            && r.value.pollIntervalMs == st.interval
            && (st.portRaw.None? ==> r.value.oneCommePort == DefaultPort)
            && (st.portRaw.Some? ==> Some(r.value.oneCommePort) == Text.ParseNumber(st.portRaw.value)))
    // an option that does not occur takes its default
    ensures r.Ok? ==>
      var args := UserArgs(argv);
      && ((forall k :: 0 <= k < |args| ==> args[k] != HostFlag) ==> r.value.oneCommeHost == DefaultHost)
      && ((forall k :: 0 <= k < |args| ==> args[k] != PortFlag) ==> r.value.oneCommePort == DefaultPort)
      && ((forall k :: 0 <= k < |args| ==> args[k] != IntervalFlag) ==> r.value.pollIntervalMs == DefaultIntervalMs)
  {
    var args := UserArgs(argv);
    ScanSound(args, 0, Initial);
    var st := Scan(args, 0, Initial);
    if st.broadcastUrl.None? then Err(MissingBroadcastUrl)
    else if st.serviceId.None? then Err(MissingServiceId)
    else if BroadcastResolver.ExtractBroadcastId(st.broadcastUrl.value).Err? then
      Err(InvalidUrl(st.broadcastUrl.value))
    else
      match st.portRaw
      case None =>
        Ok(Config(st.broadcastUrl.value, st.host, DefaultPort, st.serviceId.value, st.interval))
      case Some(raw) =>
        var parsed := Text.ParseNumber(raw);
        if parsed.None? || parsed.value < 1 || parsed.value > 65535 then Err(InvalidPort(raw))
        else Ok(Config(st.broadcastUrl.value, st.host, parsed.value, st.serviceId.value, st.interval))
  }

  /** The minimal command line yields the defaults for everything else. */
  lemma MinimalCommandLine(runtime: string, script: string, url: string, serviceId: string)
    requires IsPositional(url) && BroadcastResolver.ExtractBroadcastId(url).Ok?
    ensures ParseArgs([runtime, script, url, ServiceIdFlag, serviceId]) ==
      Ok(Config(url, DefaultHost, DefaultPort, serviceId, DefaultIntervalMs))
  {
    var args := [url, ServiceIdFlag, serviceId];
    assert UserArgs([runtime, script, url, ServiceIdFlag, serviceId]) == args;
    var s1 := Initial.(broadcastUrl := Some(url));
    assert Scan(args, 0, Initial) == Scan(args, 1, s1);
    assert Scan(args, 1, s1) == Scan(args, 3, s1.(serviceId := Some(serviceId)));
  }

  /** Scans a URL, the service-id option and one more option with its value. */
  lemma ScanOptionLine(url: string, serviceId: string, flag: string, v: string)
    requires IsPositional(url) && IsValueFlag(flag)
    ensures Scan([url, ServiceIdFlag, serviceId, flag, v], 0, Initial) ==
      Apply(flag, Some(v), Initial.(broadcastUrl := Some(url), serviceId := Some(serviceId)))
  {
    var args := [url, ServiceIdFlag, serviceId, flag, v];
    var s1 := Initial.(broadcastUrl := Some(url));
    var s2 := s1.(serviceId := Some(serviceId));
    assert !IsValueFlag(url) by {
      assert "--" <= ServiceIdFlag && "--" <= HostFlag && "--" <= PortFlag && "--" <= IntervalFlag;
    }
    assert ValueAt(args, 0) == None;
    assert Scan(args, 0, Initial) == Scan(args, 1, s1);
    assert ValueAt(args, 1) == Some(serviceId);
    assert Scan(args, 1, s1) == Scan(args, 3, s2);
    assert ValueAt(args, 3) == Some(v);
    assert Scan(args, 3, s2) == Scan(args, 5, Apply(flag, Some(v), s2));
  }

  /** Any port in range, written in decimal, is accepted as given. */
  lemma PortRoundTrip(runtime: string, script: string, url: string, serviceId: string, port: int)
    requires IsPositional(url) && BroadcastResolver.ExtractBroadcastId(url).Ok?
    requires 1 <= port <= 65535
    ensures ParseArgs([runtime, script, url, ServiceIdFlag, serviceId, PortFlag, Text.IntToString(port)]) ==
      Ok(Config(url, DefaultHost, port, serviceId, DefaultIntervalMs))
  {
    var args := [url, ServiceIdFlag, serviceId, PortFlag, Text.IntToString(port)];
    assert UserArgs([runtime, script] + args) == args;
    assert [runtime, script] + args == [runtime, script, url, ServiceIdFlag, serviceId, PortFlag, Text.IntToString(port)];
    ScanOptionLine(url, serviceId, PortFlag, Text.IntToString(port));
    Text.IntToStringRoundTrip(port);
  }

  /** A scan that found an accepted URL, a service id and no port parses to
      the scanned values with the default port. */
  lemma ParseArgsWithoutPort(argv: seq<string>, st: Scanned)
    requires Scan(UserArgs(argv), 0, Initial) == st
    requires st.broadcastUrl.Some? && st.serviceId.Some? && st.portRaw.None?
    requires BroadcastResolver.ExtractBroadcastId(st.broadcastUrl.value).Ok?
    ensures ParseArgs(argv) == Ok(Config(st.broadcastUrl.value, st.host, DefaultPort, st.serviceId.value, st.interval))
  {
  }

  /** A non-positive interval is ignored and the default kept. */
  lemma NonPositiveIntervalIgnored(runtime: string, script: string, url: string, serviceId: string, ms: int)
    requires IsPositional(url) && BroadcastResolver.ExtractBroadcastId(url).Ok?
    requires ms <= 0
    ensures ParseArgs([runtime, script, url, ServiceIdFlag, serviceId, IntervalFlag, Text.IntToString(ms)]) ==
      Ok(Config(url, DefaultHost, DefaultPort, serviceId, DefaultIntervalMs))
  {
    var args := [url, ServiceIdFlag, serviceId, IntervalFlag, Text.IntToString(ms)];
    assert UserArgs([runtime, script] + args) == args;
    assert [runtime, script] + args == [runtime, script, url, ServiceIdFlag, serviceId, IntervalFlag, Text.IntToString(ms)];
    Text.IntToStringRoundTrip(ms);
    ScanOptionLine(url, serviceId, IntervalFlag, Text.IntToString(ms));
    var st := Initial.(broadcastUrl := Some(url), serviceId := Some(serviceId));
    assert Scan(args, 0, Initial) == st;
    ParseArgsWithoutPort([runtime, script] + args, st);
  }

  const Usage: string :=
    "使い方: x-live-to-wancome <broadcast-url> --service-id <id> [--host <host>] [--port <port>] [--interval <ms>]"

  /** `formatConfigError`. */
  function FormatConfigError(e: ConfigError): (msg: string)
    ensures "エラー: " <= msg
  {
    match e
    case MissingBroadcastUrl => "エラー: ブロードキャストURLが指定されていません。\n" + Usage
    case MissingServiceId => "エラー: わんコメの枠ID（--service-id）が指定されていません。\n" + Usage
    case InvalidUrl(url) =>
      "エラー: 無効なブロードキャストURL形式です: " + url
        + "\n対応形式: https://x.com/i/broadcasts/{id} または直接ブロードキャストID"
    case InvalidPort(port) =>
      "エラー: 無効なポート番号です: " + port + "\n1〜65535の整数を指定してください。"
  }

  /** The invalid-URL and invalid-port messages quote the offending value. */
  lemma MessagesQuoteValue(e: ConfigError)
    requires e.InvalidUrl? || e.InvalidPort?
    ensures Text.HasInfix(FormatConfigError(e), if e.InvalidUrl? then e.url else e.port)
  {
    match e
    case InvalidUrl(url) =>
      Text.InfixOfConcat("エラー: 無効なブロードキャストURL形式です: ", url,
        "\n対応形式: https://x.com/i/broadcasts/{id} または直接ブロードキャストID");
    case InvalidPort(port) =>
      Text.InfixOfConcat("エラー: 無効なポート番号です: ", port, "\n1〜65535の整数を指定してください。");
  }
}

=== FILE: duplicate_filter.dfy ===
/** The bounded, insertion-ordered set of comment ids already delivered
    (src/duplicate-filter.ts). The JavaScript `Set` keeps insertion order; here
    it is a sequence of distinct ids, oldest first. */
module DuplicateFilter {
  import opened Results

  const DefaultMaxSize: nat := 10000

  datatype Filter = Filter(maxSize: nat, sentIds: seq<string>)

  predicate Distinct(s: seq<string>) {
    forall i, j :: 0 <= i < j < |s| ==> s[i] != s[j]
  }

  /** `a` is a suffix of `b`: what remains of `b` after dropping its oldest entries. */
  predicate IsSuffix(a: seq<string>, b: seq<string>) {
    |a| <= |b| && b[|b| - |a|..] == a
  }

  /** The filter's standing invariant: distinct ids, at most `maxSize` of them. */
  predicate Valid(f: Filter) {
    Distinct(f.sentIds) && |f.sentIds| <= f.maxSize
  }

  /** `createDuplicateFilter(maxSize)`: an empty filter, holding up to
      10000 ids when no capacity is given. */
  function Create(maxSize: Option<nat>): (f: Filter)
    ensures Valid(f) && Size(f) == 0
    ensures maxSize.Some? ==> f.maxSize == maxSize.value
    ensures maxSize.None? ==> f.maxSize == 10000
  {
    Filter(if maxSize.Some? then maxSize.value else DefaultMaxSize, [])
  }

  /** `isDuplicate`: the id has been marked and not yet evicted. */
  predicate IsDuplicate(f: Filter, id: string): (b: bool)
    ensures b <==> exists i :: 0 <= i < |f.sentIds| && f.sentIds[i] == id
  {
    id in f.sentIds
  }

  /** `size`: how many ids the window holds, never more than its capacity. */
  function Size(f: Filter): (n: nat)
    ensures Valid(f) ==> n <= f.maxSize
  {
    |f.sentIds|
  }

  /** The ids held, as a set. */
  function Ids(s: seq<string>): set<string> {
    set x | x in s
  }

  /** For a valid filter the size is the number of different ids held. */
  lemma {:induction false} SizeCountsDistinctIds(s: seq<string>)
    requires Distinct(s)
    ensures |Ids(s)| == |s|
  {
    if s != [] {
      var rest := s[1..];
      assert Distinct(rest) by {
        forall i, j | 0 <= i < j < |rest| ensures rest[i] != rest[j] {
          assert rest[i] == s[i + 1] && rest[j] == s[j + 1];
        }
      }
      assert s[0] !in rest by {
        forall i | 0 <= i < |rest| ensures rest[i] != s[0] {
          assert rest[i] == s[i + 1];
        }
      }
      assert Ids(s) == {s[0]} + Ids(rest) by {
        assert s == [s[0]] + rest;
      }
      assert s[0] !in Ids(rest);
      SizeCountsDistinctIds(rest);
    }
  }

  function Min(a: nat, b: nat): nat {
    if a <= b then a else b
  }

  /** `markSent`: add the id (a no-op when present), then, when the set has
      grown past `maxSize`, delete its first (oldest) element. */
  function MarkSent(f: Filter, id: string): (g: Filter)
    ensures g.maxSize == f.maxSize
    ensures Valid(f) ==> Valid(g)
    ensures Valid(f) && IsDuplicate(f, id) ==> g == f
    ensures Valid(f) && f.maxSize >= 1 ==> IsDuplicate(g, id)
    ensures forall x :: IsDuplicate(g, x) ==> IsDuplicate(f, x) || x == id
  {
    if id in f.sentIds then
      if |f.sentIds| > f.maxSize then f.(sentIds := f.sentIds[1..]) else f
    else
      var added := f.sentIds + [id];
      if |added| > f.maxSize then
        assert |added| >= 2 ==> added[1..][|added| - 2] == id;
        f.(sentIds := added[1..])
      else
        f.(sentIds := added)
  }

  /** A fresh id is appended, and the result is the newest entries of the
      old ids followed by the new one, growing by one up to capacity. */
  lemma MarkSentFreshShape(f: Filter, id: string)
    requires !IsDuplicate(f, id)
    ensures IsSuffix(MarkSent(f, id).sentIds, f.sentIds + [id])
    ensures Valid(f) ==> Size(MarkSent(f, id)) == Min(Size(f) + 1, f.maxSize)
  {
    var added := f.sentIds + [id];
    assert added[1..] == added[|added| - |added[1..]|..];
  }

  /** Below capacity nothing is evicted. */
  lemma MarkSentBelowCapacityKeepsAll(f: Filter, id: string)
    requires Valid(f) && Size(f) < f.maxSize
    ensures forall x :: IsDuplicate(f, x) ==> IsDuplicate(MarkSent(f, id), x)
  {
  }

  /** When a fresh id overflows the capacity, exactly the oldest id is
      removed and every other id keeps its membership. */
  lemma MarkSentEvictsOldest(f: Filter, id: string)
    requires Valid(f) && !IsDuplicate(f, id) && Size(f) == f.maxSize >= 1
    ensures !IsDuplicate(MarkSent(f, id), f.sentIds[0])
    ensures forall i :: 1 <= i < |f.sentIds| ==> IsDuplicate(MarkSent(f, id), f.sentIds[i])
  {
    var g := MarkSent(f, id);
    assert g.sentIds == f.sentIds[1..] + [id];
    forall i | 1 <= i < |f.sentIds| ensures IsDuplicate(g, f.sentIds[i]) {
      assert g.sentIds[i - 1] == f.sentIds[i];
    }
  }

  /** Marks each id in turn, oldest first. */
  function MarkAll(f: Filter, ids: seq<string>): (g: Filter)
    ensures g.maxSize == f.maxSize
    ensures Valid(f) ==> Valid(g)
    ensures forall x :: IsDuplicate(g, x) ==> IsDuplicate(f, x) || x in ids
  {
    if ids == [] then f
    else MarkSent(MarkAll(f, ids[..|ids| - 1]), ids[|ids| - 1])
  }

  /** The newest `n` entries of `s`. */
  function LastN(s: seq<string>, n: nat): (r: seq<string>)
    ensures |r| == Min(|s|, n) && IsSuffix(r, s)
    ensures |s| >= n ==> r == s[|s| - n..]
  {
    if |s| <= n then s else s[|s| - n..]
  }

  /** Marking an id not present keeps the newest `maxSize` of the old ids
      followed by the new one. */
  lemma MarkSentFresh(h: Filter, x: string)
    requires |h.sentIds| <= h.maxSize && x !in h.sentIds
    ensures MarkSent(h, x).sentIds == LastN(h.sentIds + [x], h.maxSize)
  {
  }

  /** Keeping the newest n, appending, and keeping the newest n again is the
      same as appending and keeping the newest n. */
  lemma LastNAppend(s: seq<string>, x: string, n: nat)
    ensures LastN(LastN(s, n) + [x], n) == LastN(s + [x], n)
  {
    if |s| + 1 <= n {
    } else if |s| <= n {
      assert (s + [x])[1..] == (s + [x])[|s| + 1 - n..];
    } else {
      assert (s[|s| - n..] + [x])[1..] == (s + [x])[|s| + 1 - n..];
    }
  }

  lemma DistinctPrefix(s: seq<string>, x: string)
    requires Distinct(s + [x])
    ensures Distinct(s) && x !in s
  {
    var all := s + [x];
    forall i, j | 0 <= i < j < |s| ensures s[i] != s[j] {
      assert s[i] == all[i] && s[j] == all[j];
    }
    forall i | 0 <= i < |s| ensures s[i] != x {
      assert s[i] == all[i] && x == all[|s|];
    }
  }

  lemma NotInSuffix(a: seq<string>, b: seq<string>, x: string)
    requires IsSuffix(a, b) && x !in b
    ensures x !in a
  {
  }

  /** Marking fresh distinct ids keeps exactly the newest `maxSize` of
      everything ever marked, in insertion order. */
  lemma {:induction false} MarkAllKeepsNewest(f: Filter, ids: seq<string>)
    requires Valid(f)
    requires Distinct(f.sentIds + ids)
    ensures MarkAll(f, ids).sentIds == LastN(f.sentIds + ids, f.maxSize)
  {
    if ids == [] {
      assert f.sentIds + ids == f.sentIds;
    } else {
      var init := ids[..|ids| - 1];
      var x := ids[|ids| - 1];
      var prev := f.sentIds + init;
      assert f.sentIds + ids == prev + [x];
      DistinctPrefix(prev, x);
      MarkAllKeepsNewest(f, init);
      var h := MarkAll(f, init);
      NotInSuffix(h.sentIds, prev, x);
      MarkSentFresh(h, x);
      LastNAppend(prev, x, f.maxSize);
    }
  }

  /** In a window holding the newest n of distinct ids, exactly the ids
      outside the window are absent. */
  lemma WindowMembership(ids: seq<string>, n: nat, g: Filter)
    requires Distinct(ids) && |ids| >= n
    requires g.sentIds == LastN(ids, n)
    ensures forall i :: 0 <= i < |ids| - n ==> !IsDuplicate(g, ids[i])
    ensures forall i :: |ids| - n <= i < |ids| ==> IsDuplicate(g, ids[i])
  {
    forall i | 0 <= i < |ids| - n
      ensures !IsDuplicate(g, ids[i])
    {
    }
    forall i | |ids| - n <= i < |ids|
      ensures IsDuplicate(g, ids[i])
    {
      assert g.sentIds[i - (|ids| - n)] == ids[i];
    }
  }

  /** With capacity N, after N + k distinct inserts into an empty filter the
      k oldest ids are no longer duplicates, the N newest are, and the size
      stays N. */
  lemma DistinctInsertsEvictOldest(n: nat, ids: seq<string>)
    requires Distinct(ids) && |ids| >= n
    ensures Size(MarkAll(Create(Some(n)), ids)) == n
    ensures forall i :: 0 <= i < |ids| - n ==> !IsDuplicate(MarkAll(Create(Some(n)), ids), ids[i])
    ensures forall i :: |ids| - n <= i < |ids| ==> IsDuplicate(MarkAll(Create(Some(n)), ids), ids[i])
  {
    var g := MarkAll(Create(Some(n)), ids);
    assert g.sentIds == LastN(ids, n) by {
      assert Create(Some(n)).sentIds + ids == ids;
      MarkAllKeepsNewest(Create(Some(n)), ids);
    }
    WindowMembership(ids, n, g);
  }
}

=== FILE: message_parser.dfy ===
/** Conversion of raw chat-history envelopes into normalised comments
    (src/message-parser.ts). JSON decoding is abstract: `decodePayload` and
    `decodeBody` return `None` exactly where `JSON.parse` throws. */
module MessageParser {
  import opened Results
  import opened Types

  /** The sender block of the outer payload. */
  datatype PayloadSender = PayloadSender(
    userId: string,
    username: string,
    displayName: string,
    profileImageUrl: string,
    verified: bool,
    twitterId: string)

  /** The outer payload: `body` is itself a JSON string; `timestamp` is in
      nanoseconds and is not used. */
  datatype ParsedPayload = ParsedPayload(
    uuid: string,
    body: string,
    lang: string,
    sender: PayloadSender,
    timestamp: int)

  /** The inner body: the comment text and its millisecond timestamp. */
  datatype ParsedBody = ParsedBody(body: string, timestamp: int)

  type PayloadDecoder = string -> Option<ParsedPayload>
  type BodyDecoder = string -> Option<ParsedBody>

  /** The comment one envelope yields, if any: only chat envelopes (kind 1)
      whose payload and inner body both decode. */
  function ParseEntry(m: RawChatMessage, decodePayload: PayloadDecoder, decodeBody: BodyDecoder): (r: Option<ParsedComment>)
    ensures m.kind != 1 ==> r.None?
    ensures r.Some? <==>
      m.kind == 1 && decodePayload(m.payload).Some? &&
      decodeBody(decodePayload(m.payload).value.body).Some?
    ensures r.Some? ==>
      var p := decodePayload(m.payload).value;
      var b := decodeBody(p.body).value;
      && r.value.id == p.uuid
      && r.value.userId == p.sender.twitterId
      && r.value.username == p.sender.username
      && r.value.displayName == p.sender.displayName
      && r.value.comment == b.body
      && r.value.profileImage == p.sender.profileImageUrl
      && r.value.timestamp == b.timestamp
      && r.value.verified == p.sender.verified
      && r.value.lang == p.lang
  {
    if m.kind != 1 then None
    else
      match decodePayload(m.payload)
      case None => None
      case Some(p) =>
        match decodeBody(p.body)
        case None => None
        case Some(b) =>
          Some(ParsedComment(p.uuid, p.sender.twitterId, p.sender.username, p.sender.displayName,
                             b.body, p.sender.profileImageUrl, b.timestamp, p.sender.verified, p.lang))
  }

  /** `parse`: every envelope in order, skipping those that yield nothing
      and carrying on with the rest. */
  function Parse(raw: seq<RawChatMessage>, decodePayload: PayloadDecoder, decodeBody: BodyDecoder): (r: seq<ParsedComment>)
    ensures |r| <= |raw|
    ensures forall c :: c in r ==>
      exists i :: 0 <= i < |raw| && ParseEntry(raw[i], decodePayload, decodeBody) == Some(c)
    ensures forall i :: 0 <= i < |raw| && ParseEntry(raw[i], decodePayload, decodeBody).Some? ==>
      ParseEntry(raw[i], decodePayload, decodeBody).value in r
  {
    if raw == [] then []
    else
      var prefix := raw[..|raw| - 1];
      var last := raw[|raw| - 1];
      var rest := Parse(prefix, decodePayload, decodeBody);
      var e := ParseEntry(last, decodePayload, decodeBody);
      assert forall i :: 0 <= i < |prefix| ==> prefix[i] == raw[i];
      if e.Some? then rest + [e.value] else rest
  }

  /** Parsing distributes over concatenation: a skipped entry never affects
      the entries around it, and order is preserved. */
  lemma {:induction false} ParseAppend(a: seq<RawChatMessage>, b: seq<RawChatMessage>, dp: PayloadDecoder, db: BodyDecoder)
    ensures Parse(a + b, dp, db) == Parse(a, dp, db) + Parse(b, dp, db)
    decreases |b|
  {
    if b == [] {
      assert a + b == a;
    } else {
      var init := b[..|b| - 1];
      assert (a + b)[..|a + b| - 1] == a + init;
      assert (a + b)[|a + b| - 1] == b[|b| - 1];
      ParseAppend(a, init, dp, db);
    }
  }

  /** A batch without chat envelopes yields nothing. */
  lemma {:induction false} NoChatNoOutput(raw: seq<RawChatMessage>, dp: PayloadDecoder, db: BodyDecoder)
    requires forall i :: 0 <= i < |raw| ==> raw[i].kind != 1
    ensures Parse(raw, dp, db) == []
  {
    if raw != [] {
      NoChatNoOutput(raw[..|raw| - 1], dp, db);
    }
  }

  /** An entry that fails to decode is dropped and the rest is unaffected. */
  lemma SkipUndecodable(a: seq<RawChatMessage>, m: RawChatMessage, b: seq<RawChatMessage>, dp: PayloadDecoder, db: BodyDecoder)
    requires ParseEntry(m, dp, db).None?
    ensures Parse(a + [m] + b, dp, db) == Parse(a, dp, db) + Parse(b, dp, db)
  {
    ParseAppend(a + [m], b, dp, db);
    ParseAppend(a, [m], dp, db);
    assert [m][..0] == [];
  }
}

=== FILE: onecomme_client.dfy ===
/** The plain delivery client of the comment application (src/onecomme-client.ts):
    the payload conversion and the classification of one POST's outcome. */
module OneCommeClient {
  import opened Results
  import opened Types
  import Text

  /** The `comment` part of the delivery payload. */
  datatype CommentBody = CommentBody(
    id: string,
    userId: string,
    name: string,
    comment: string,
    profileImage: string,
    badges: seq<string>,
    hasGift: bool,
    isOwner: bool,
    timestamp: string)

  /** The delivery payload: the receiver's service id and the comment. */
  datatype OneCommeComment = OneCommeComment(serviceId: string, comment: CommentBody)

  /** Configuration of the client; host and port only address the request. */
  datatype Config = Config(host: string, port: int, serviceId: string, ownerUserId: string)

  type SendResult = Result<(), SendError>

  /** `toOneCommeComment`: the payload for one parsed comment. The timestamp
      is rendered as `String(timestamp)`: the canonical decimal string that reads
      back to the original number. */
  function ToOneCommeComment(c: ParsedComment, serviceId: string, ownerUserId: string): (r: OneCommeComment)
    ensures r.serviceId == serviceId
    ensures r.comment.id == c.id && r.comment.userId == c.userId
    ensures r.comment.name == c.displayName
    ensures r.comment.comment == c.comment && r.comment.profileImage == c.profileImage
    ensures r.comment.badges == [] && !r.comment.hasGift
    ensures r.comment.isOwner <==> c.userId == ownerUserId
    ensures Text.IsCanonicalInt(r.comment.timestamp) && Text.ParseNumber(r.comment.timestamp) == Some(c.timestamp)
  {
    Text.IntToStringRoundTrip(c.timestamp);
    OneCommeComment(
      serviceId,
      CommentBody(c.id, c.userId, c.displayName, c.comment, c.profileImage, [], false,
                  c.userId == ownerUserId, Text.IntToString(c.timestamp)))
  }

  /** The error kind (or success) for the outcome of one POST. */
  function Classify(outcome: Outcome<()>, serviceId: string): (r: SendResult)
    ensures r.Ok? <==> Succeeded(outcome)
    ensures r == Err(Timeout) <==> outcome.Failed? && outcome.isAbort
    ensures r == Err(ConnectionRefused) <==> outcome.Failed? && !outcome.isAbort
    ensures outcome.Replied? && outcome.status == 400 ==> r == Err(InvalidServiceId(serviceId))
    ensures outcome.Replied? && !IsOkStatus(outcome.status) && outcome.status != 400 ==>
      r == Err(SendApiError(outcome.status, outcome.statusText))
    ensures r.Err? ==> !r.error.ValidationError?
  {
    match outcome
    case Failed(isAbort, _) => if isAbort then Err(Timeout) else Err(ConnectionRefused)
    case Replied(status, statusText, _, _) =>
      if !IsOkStatus(status) then
        if status == 400 then Err(InvalidServiceId(serviceId))
        else Err(SendApiError(status, statusText))
      else Ok(())
  }

  /** Where comments are posted: `POST /api/comments` on the configured host
      and port. */
  function CommentsUrl(config: Config): (url: string)
    ensures "http://" + config.host + ":" <= url
    ensures |url| > 13 && url[|url| - 13..] == "/api/comments"
  {
    "http://" + config.host + ":" + Text.IntToString(config.port) + "/api/comments"
  }

  /** One delivery: the URL posted to, the payload and the classified outcome. */
  datatype Delivery = Delivery(url: string, payload: OneCommeComment, result: SendResult)

  /** `send`: build the payload for the configured service and owner, post
      it, classify the answer. */
  function Send(config: Config, c: ParsedComment, outcome: Outcome<()>): (d: Delivery)
    ensures d.url == CommentsUrl(config)
    ensures d.payload == ToOneCommeComment(c, config.serviceId, config.ownerUserId)
    ensures d.result == Classify(outcome, config.serviceId)
    ensures d.result.Ok? <==> Succeeded(outcome)
    ensures d.result.Err? && d.result.error.InvalidServiceId? ==>
      d.result.error.serviceId == config.serviceId
  {
    Delivery(CommentsUrl(config), ToOneCommeComment(c, config.serviceId, config.ownerUserId),
             Classify(outcome, config.serviceId))
  }
}

=== FILE: page_detector.dfy ===
/** Recognising the Media Studio broadcast page (extension/src/page-detector.ts).
    The pattern `^https://studio\.x\.com/producer/broadcasts/([A-Za-z0-9_]+)`
    is its literal prefix followed by a greedy identifier run. */
module PageDetector {
  import opened Results
  import Text

  const ProducerPrefix: string := "https://studio.x.com/producer/broadcasts/"

  /** `extractBroadcastId`: the identifier run right after the prefix, when
      the URL has the prefix and the run is non-empty. */
  function ExtractBroadcastId(url: string): (r: Option<string>)
    ensures r.Some? <==> ProducerPrefix <= url && Text.IdRun(url[|ProducerPrefix|..]) != []
    ensures r.Some? ==> r.value != [] && Text.AllIdChars(r.value) && ProducerPrefix + r.value <= url
  {
    if ProducerPrefix <= url && Text.IdRun(url[|ProducerPrefix|..]) != [] then
      var id := Text.IdRun(url[|ProducerPrefix|..]);
      assert url == ProducerPrefix + url[|ProducerPrefix|..];
      Some(id)
    else None
  }

  /** `isProducerPage`: the same pattern, tested without capturing; so a
      URL is a producer page exactly when an id can be extracted from it. */
  function IsProducerPage(url: string): (b: bool)
    ensures b <==> ExtractBroadcastId(url).Some?
  {
    ProducerPrefix <= url && Text.IdRun(url[|ProducerPrefix|..]) != []
  }

  /** A producer page URL built from an id, followed by anything that does
      not continue the id (a path, a query, nothing), gives that id back. */
  lemma ExtractRoundTrip(id: string, rest: string)
    requires id != [] && Text.AllIdChars(id)
    requires rest != [] ==> !Text.IsIdChar(rest[0])
    ensures ExtractBroadcastId(ProducerPrefix + id + rest) == Some(id)
  {
    var url := ProducerPrefix + id + rest;
    assert url[|ProducerPrefix|..] == id + rest;
    Text.IdRunUnique(id + rest, id);
  }
}

=== FILE: pipeline.dfy ===
/** The relay's message handler (the `handleMessages` callback of
    src/index.ts): parse a batch, skip comments whose id was already
    delivered, send the rest through the buffered client, and mark an id only
    after its send succeeded. */
module Pipeline {
  import opened Results
  import opened Types
  import DuplicateFilter
  import BufferedClient
  import MessageParser

  /** The handler's state across batches: the duplicate filter, the buffered
      client, how many sends were made, the two counters, and the ids of the
      comments delivered so far, in order. */
  datatype Relay = Relay(
    filter: DuplicateFilter.Filter,
    client: BufferedClient.Client,
    sends: nat,
    totalComments: nat,
    totalErrors: nat,
    delivered: seq<string>
  )

  /** How the OneComme endpoint behaves during the k-th send. */
  type Inners = nat -> BufferedClient.Inner

  predicate Valid(opts: BufferedClient.Options, r: Relay) {
    DuplicateFilter.Valid(r.filter) && BufferedClient.Valid(opts, r.client)
  }

  /** One comment of the loop body. */
  function HandleComment(opts: BufferedClient.Options, r: Relay, c: ParsedComment, inners: Inners): (s: Relay)
    ensures DuplicateFilter.IsDuplicate(r.filter, c.id) ==> s == r
    ensures !DuplicateFilter.IsDuplicate(r.filter, c.id) ==> s.sends == r.sends + 1
    ensures s.totalComments + s.totalErrors == r.totalComments + r.totalErrors + (s.sends - r.sends)
    ensures s.totalComments == r.totalComments + 1 <==>
      !DuplicateFilter.IsDuplicate(r.filter, c.id) &&
      BufferedClient.Send(opts, r.client, c, inners(r.sends)).result.Ok?
    ensures s.totalComments == r.totalComments + 1 ==>
      s.delivered == r.delivered + [c.id] && s.filter == DuplicateFilter.MarkSent(r.filter, c.id)
    ensures s.totalComments != r.totalComments + 1 ==>
      s.totalComments == r.totalComments && s.delivered == r.delivered && s.filter == r.filter
    ensures Valid(opts, r) ==> Valid(opts, s)
  {
    if DuplicateFilter.IsDuplicate(r.filter, c.id) then r
    else
      var step := BufferedClient.Send(opts, r.client, c, inners(r.sends));
      if step.result.Ok? then
        Relay(DuplicateFilter.MarkSent(r.filter, c.id), step.client, r.sends + 1,
              r.totalComments + 1, r.totalErrors, r.delivered + [c.id])
      else
        r.(client := step.client, sends := r.sends + 1, totalErrors := r.totalErrors + 1)
  }

  /** The loop over a batch of parsed comments, in order. */
  function HandleComments(opts: BufferedClient.Options, r: Relay, comments: seq<ParsedComment>, inners: Inners): Relay
    decreases |comments|
  {
    if comments == [] then r
    else
      var last := |comments| - 1;
      HandleComment(opts, HandleComments(opts, r, comments[..last], inners), comments[last], inners)
  }

  /** `handleMessages`: parse the raw batch, then handle each comment. */
  function HandleMessages(opts: BufferedClient.Options, r: Relay, raw: seq<RawChatMessage>,
                          decodePayload: MessageParser.PayloadDecoder, decodeBody: MessageParser.BodyDecoder,
                          inners: Inners): (s: Relay)
    ensures Valid(opts, r) ==> Valid(opts, s)
    ensures s.sends - r.sends <= |raw|
  {
    var parsed := MessageParser.Parse(raw, decodePayload, decodeBody);
    HandleSummary(opts, r, parsed, inners);
    HandleComments(opts, r, parsed, inners)
  }

  /** Over any batch: every send is counted once, as a delivery or as an
      error; at most one send per comment; only ids of the batch are
      delivered; and the invariants of filter and client hold throughout. */
  lemma {:induction false} HandleSummary(opts: BufferedClient.Options, r: Relay, comments: seq<ParsedComment>,
                                         inners: Inners)
    ensures var s := HandleComments(opts, r, comments, inners);
      && r.sends <= s.sends <= r.sends + |comments|
      && s.totalComments + s.totalErrors == r.totalComments + r.totalErrors + (s.sends - r.sends)
      && r.delivered <= s.delivered
      && |s.delivered| - |r.delivered| == s.totalComments - r.totalComments
      && (forall i :: |r.delivered| <= i < |s.delivered| ==> exists c :: c in comments && c.id == s.delivered[i])
      && (Valid(opts, r) ==> Valid(opts, s))
    decreases |comments|
  {
    if comments != [] {
      var last := |comments| - 1;
      var prefix := comments[..last];
      HandleSummary(opts, r, prefix, inners);
      var mid := HandleComments(opts, r, prefix, inners);
      var s := HandleComments(opts, r, comments, inners);
      forall i | |r.delivered| <= i < |s.delivered|
        ensures exists c :: c in comments && c.id == s.delivered[i]
      {
        if i < |mid.delivered| {
          var c :| c in prefix && c.id == mid.delivered[i];
          assert c in comments;
        } else {
          assert s.delivered[i] == comments[last].id;
        }
      }
    }
  }

  /** While the filter has room for the whole batch, nothing is evicted: the
      filter holds exactly the ids it held plus those delivered, in order,
      and so no id is ever delivered twice nor re-delivered after an
      earlier batch. */
  lemma {:induction false} NoRedeliveryWithinCapacity(opts: BufferedClient.Options, r: Relay,
                                                      comments: seq<ParsedComment>, inners: Inners)
    requires DuplicateFilter.Valid(r.filter)
    requires |r.filter.sentIds| + |comments| <= r.filter.maxSize
    ensures var s := HandleComments(opts, r, comments, inners);
      && r.delivered <= s.delivered
      && s.filter.maxSize == r.filter.maxSize
      && s.filter.sentIds == r.filter.sentIds + s.delivered[|r.delivered|..]
      && DuplicateFilter.Distinct(s.filter.sentIds)
      && |s.filter.sentIds| <= |r.filter.sentIds| + |comments|
    decreases |comments|
  {
    if comments != [] {
      var last := |comments| - 1;
      var prefix := comments[..last];
      NoRedeliveryWithinCapacity(opts, r, prefix, inners);
      HandleSummary(opts, r, prefix, inners);
      var mid := HandleComments(opts, r, prefix, inners);
      var s := HandleComments(opts, r, comments, inners);
      var c := comments[last];
      if s.totalComments == mid.totalComments + 1 {
        assert !DuplicateFilter.IsDuplicate(mid.filter, c.id);
        assert s.filter.sentIds == mid.filter.sentIds + [c.id];
        assert s.delivered[|r.delivered|..] == mid.delivered[|r.delivered|..] + [c.id];
      }
    }
  }
}

=== FILE: results.dfy ===
/** The tagged success/failure value that every fallible operation of the relay
    returns in place of an exception (src/result.ts). */
module Results {

  /** A value that may be absent: the source's `T | null`. */
  datatype Option<+T> = None | Some(value: T)

  /** `Ok` carries the success value, `Err` the failure value. */
  datatype Result<+T, +E> = Ok(value: T) | Err(error: E)

  /** True when the result is a success (the `ok` tag is set). */
  predicate IsOk<T, E>(r: Result<T, E>): (b: bool)
    ensures b <==> !r.Err?
  {
    r.Ok?
  }

  /** True when the result is a failure: the negation of the `ok` tag. */
  predicate IsErr<T, E>(r: Result<T, E>): (b: bool)
    ensures b <==> r.Err?
  {
    !IsOk(r)
  }

  /** Extracts the success value. The source throws on a failure, so here a
      failure is ruled out by the precondition. */
  function Unwrap<T, E>(r: Result<T, E>): (v: T)
    requires IsOk(r)
    ensures r == Ok(v)
  {
    r.value
  }

  /** A success built from a value is ok, not an error, and unwraps to that
      value. */
  lemma OkRoundTrip<T, E>(v: T)
    ensures IsOk<T, E>(Ok(v)) && !IsErr<T, E>(Ok(v))
    ensures Unwrap<T, E>(Ok(v)) == v
  {
  }

  /** A failure built from an error is an error and not ok. */
  lemma ErrIsErr<T, E>(e: E)
    ensures IsErr<T, E>(Err(e)) && !IsOk<T, E>(Err(e))
  {
  }
}

=== FILE: service_resolver.dfy ===
/** Service-name to service-id resolution against the OneComme API, and the
    user-facing messages for its failures (src/service-resolver.ts). The
    `GET /api/services` call is an outcome parameter. */
module ServiceResolver {
  import opened Results
  import opened Types
  import Text

  /** Where the service list is fetched from: `GET /api/services` on the
      configured host and port. */
  function ServicesUrl(host: string, port: int): (url: string)
    ensures "http://" + host + ":" <= url
    ensures |url| > 13 && url[|url| - 13..] == "/api/services"
  {
    "http://" + host + ":" + Text.IntToString(port) + "/api/services"
  }

  /** `services.filter(s => s.name === serviceName)`. */
  function Matching(services: seq<OneCommeService>, serviceName: string): (r: seq<OneCommeService>)
    ensures |r| <= |services|
    ensures forall s :: s in r <==> s in services && s.name == serviceName
    ensures |services| == 1 ==> r == (if services[0].name == serviceName then services else [])
  {
    if services == [] then []
    else
      var rest := Matching(services[1..], serviceName);
      assert forall s :: s in services <==> s == services[0] || s in services[1..];
      if services[0].name == serviceName then [services[0]] + rest else rest
  }

  /** Filtering distributes over concatenation. With the one-element case in
      `Matching`'s contract this fixes the result completely: the matching
      services, each as often as it occurs, in list order. */
  lemma {:induction false} MatchingAppend(a: seq<OneCommeService>, b: seq<OneCommeService>, serviceName: string)
    ensures Matching(a + b, serviceName) == Matching(a, serviceName) + Matching(b, serviceName)
  {
    if a == [] {
      assert a + b == b;
    } else {
      assert (a + b)[1..] == a[1..] + b;
      MatchingAppend(a[1..], b, serviceName);
    }
  }

  /** `services.map(s => s.name)`. */
  function Names(services: seq<OneCommeService>): (r: seq<string>)
    ensures |r| == |services|
    ensures forall i :: 0 <= i < |r| ==> r[i] == services[i].name
  {
    if services == [] then [] else [services[0].name] + Names(services[1..])
  }

  /** `matches.map(s => ({ id: s.id, name: s.name }))`. */
  function ToMatches(services: seq<OneCommeService>): (r: seq<ServiceMatch>)
    ensures |r| == |services|
    ensures forall i :: 0 <= i < |r| ==> r[i] == ServiceMatch(services[i].id, services[i].name)
  {
    if services == [] then [] else [ServiceMatch(services[0].id, services[0].name)] + ToMatches(services[1..])
  }

  /** What `resolve` did: its result and the URL it fetched. */
  datatype Lookup = Lookup(result: Result<string, ServiceResolveError>, request: string)

  /** `resolve`: an abort is a timeout, any other throw a refused connection,
      a non-2xx reply an API error with the body text; otherwise the name must
      match exactly one service. */
  function Resolve(host: string, port: int, serviceName: string, outcome: Outcome<seq<OneCommeService>>): (l: Lookup)
    ensures l.request == ServicesUrl(host, port)
    ensures outcome.Failed? ==> l.result == Err(if outcome.isAbort then ResolveTimeout else ResolveConnectionRefused)
    ensures outcome.Replied? && !IsOkStatus(outcome.status) ==>
      l.result == Err(ResolveApiError(outcome.status, outcome.text))
    ensures Succeeded(outcome) ==>
      var services := outcome.body;
      var matches := Matching(services, serviceName);
      && (l.result.Ok? <==> |matches| == 1)
      && (l.result.Ok? ==> exists s :: s in services && s.name == serviceName && l.result.value == s.id &&
                             forall t :: t in services && t.name == serviceName ==> t == s)
      && ((forall s :: s in services ==> s.name != serviceName) <==>
            l.result == Err(ServiceNotFound(serviceName, Names(services))))
      && (|matches| >= 2 <==> l.result.Err? && l.result.error.Ambiguous?)
      && (|matches| >= 2 ==> l.result == Err(Ambiguous(serviceName, ToMatches(matches))))
  {
    var r: Result<string, ServiceResolveError> :=
      match outcome
      case Failed(isAbort, _) => Err(if isAbort then ResolveTimeout else ResolveConnectionRefused)
      case Replied(status, _, text, services) =>
        if !IsOkStatus(status) then Err(ResolveApiError(status, text))
        else
          var matches := Matching(services, serviceName);
          if |matches| == 1 then
            assert matches[0] in matches;
            Ok(matches[0].id)
          else if |matches| == 0 then
            Err(ServiceNotFound(serviceName, Names(services)))
          else
            Err(Ambiguous(serviceName, ToMatches(matches)));
    Lookup(r, ServicesUrl(host, port))
  }

  const ErrorPrefix: string := "エラー: "
  const NoServices: string := "(なし)"
  const ServiceIdFlag: string := "--service-id"

  function MatchLine(m: ServiceMatch): string {
    "  - " + m.name + " (ID: " + m.id + ")"
  }

  function MatchLines(matches: seq<ServiceMatch>): (r: seq<string>)
    ensures |r| == |matches|
    ensures forall i :: 0 <= i < |r| ==> r[i] == MatchLine(matches[i])
  {
    if matches == [] then [] else [MatchLine(matches[0])] + MatchLines(matches[1..])
  }

  function NotFoundHeader(serviceName: string): string {
    ErrorPrefix + "サービス名「" + serviceName + "」に一致するサービスが見つかりません。\n利用可能なサービス名: "
  }

  function AmbiguousHeader(serviceName: string): string {
    ErrorPrefix + "サービス名「" + serviceName + "」に複数のサービスが一致しました。" + ServiceIdFlag
      + " で直接指定してください。\n"
  }

  /** `formatServiceResolveError`: every message starts with the error marker. */
  function FormatServiceResolveError(e: ServiceResolveError): (msg: string)
    ensures ErrorPrefix <= msg
  {
    match e
    case ServiceNotFound(name, available) =>
      NotFoundHeader(name) + (if |available| > 0 then Text.Join(available, ", ") else NoServices)
    case Ambiguous(name, matches) =>
      AmbiguousHeader(name) + Text.Join(MatchLines(matches), "\n")
    case ResolveConnectionRefused =>
      ErrorPrefix + "わんコメAPIへの接続が拒否されました。わんコメが起動しているか確認してください。"
    case ResolveTimeout =>
      ErrorPrefix + "わんコメAPIへの接続がタイムアウトしました。"
    case ResolveApiError(status, message) =>
      ErrorPrefix + "わんコメAPIがエラーを返しました (" + Text.IntToString(status) + "): " + message
  }

  /** The not-found message names the service asked for and lists every
      available service name. */
  lemma NotFoundListsServices(name: string, available: seq<string>, i: nat)
    requires i < |available|
    ensures var msg := FormatServiceResolveError(ServiceNotFound(name, available));
      Text.HasInfix(msg, name) && Text.HasInfix(msg, available[i])
  {
    var msg := FormatServiceResolveError(ServiceNotFound(name, available));
    Text.JoinContainsParts(available, ", ", i);
    Text.InfixRight(NotFoundHeader(name), Text.Join(available, ", "), available[i]);
    Text.InfixOfConcat(ErrorPrefix + "サービス名「", name,
      "」に一致するサービスが見つかりません。\n利用可能なサービス名: ");
    Text.InfixLeft(NotFoundHeader(name), Text.Join(available, ", "), name);
  }

  /** With no services at all, the not-found message says so. */
  lemma NotFoundWithoutServices(name: string)
    ensures Text.HasInfix(FormatServiceResolveError(ServiceNotFound(name, [])), NoServices)
  {
    Text.InfixOfConcat(NotFoundHeader(name), NoServices, []);
    assert NotFoundHeader(name) + NoServices + [] == NotFoundHeader(name) + NoServices;
  }

  /** The ambiguity message points at `--service-id` and lists the id of
      every matching service. */
  lemma AmbiguousListsIds(name: string, matches: seq<ServiceMatch>, i: nat)
    requires i < |matches|
    ensures var msg := FormatServiceResolveError(Ambiguous(name, matches));
      Text.HasInfix(msg, ServiceIdFlag) && Text.HasInfix(msg, matches[i].id)
  {
    var lines := MatchLines(matches);
    var body := Text.Join(lines, "\n");
    Text.InfixOfConcat("  - " + matches[i].name + " (ID: ", matches[i].id, ")");
    Text.JoinContainsParts(lines, "\n", i);
    Text.InfixTrans(body, lines[i], matches[i].id);
    Text.InfixRight(AmbiguousHeader(name), body, matches[i].id);
    Text.InfixOfConcat(ErrorPrefix + "サービス名「" + name + "」に複数のサービスが一致しました。",
      ServiceIdFlag, " で直接指定してください。\n");
    Text.InfixLeft(AmbiguousHeader(name), body, ServiceIdFlag);
  }
}

=== FILE: settings.dfy ===
/** The extension's settings store over the browser's key-value storage
    (extension/src/settings.ts). Storage areas are maps from keys to untyped
    values; the asynchronous API is modelled as pure reads and writes. */
module Settings {
  import opened Results

  /** A stored value, by its JavaScript `typeof`; `Other` stands for objects,
      arrays and anything else. */
  datatype Value = Str(s: string) | Num(n: int) | Bool(b: bool) | Null | Other

  type Area = map<string, Value>

  /** The `local` (persistent) and `session` storage areas. */
  datatype Storage = Storage(local: Area, session: Area)

  datatype ExtensionSettings = ExtensionSettings(serverHost: string, serverPort: int)

  datatype SessionState = SessionState(
    isActive: bool,
    mediaKey: Option<string>,
    ownerId: Option<string>,
    currentViewerCount: Option<int>,
    lastError: Option<string>,
    activeTabId: Option<int>
  )

  const DefaultSettings: ExtensionSettings := ExtensionSettings("localhost", 11190)
  const InitialSessionState: SessionState := SessionState(false, None, None, None, None, None)

  const SettingsKeys: set<string> := {"serverHost", "serverPort"}
  const SessionKeys: set<string> :=
    {"isActive", "mediaKey", "ownerId", "currentViewerCount", "lastError", "activeTabId"}

  /** The value under `key` if it is a string. */
  function StrAt(a: Area, key: string): (r: Option<string>)
    ensures r.Some? <==> key in a && a[key].Str?
  {
    if key in a && a[key].Str? then Some(a[key].s) else None
  }

  /** The value under `key` if it is a number. */
  function NumAt(a: Area, key: string): (r: Option<int>)
    ensures r.Some? <==> key in a && a[key].Num?
  {
    if key in a && a[key].Num? then Some(a[key].n) else None
  }

  function OrElse<T>(o: Option<T>, default: T): T {
    if o.Some? then o.value else default
  }

  /** `loadSettings`: each field is read if it has the right type and
      defaulted otherwise. */
  function LoadSettings(st: Storage): (s: ExtensionSettings)
    ensures s.serverHost == (if "serverHost" in st.local && st.local["serverHost"].Str?
                             then st.local["serverHost"].s else DefaultSettings.serverHost)
    ensures s.serverPort == (if "serverPort" in st.local && st.local["serverPort"].Num?
                             then st.local["serverPort"].n else DefaultSettings.serverPort)
  {
    ExtensionSettings(OrElse(StrAt(st.local, "serverHost"), DefaultSettings.serverHost),
                      OrElse(NumAt(st.local, "serverPort"), DefaultSettings.serverPort))
  }

  /** `saveSettings`: writes both fields into the local area. */
  function SaveSettings(st: Storage, s: ExtensionSettings): (r: Storage)
    ensures r.session == st.session
    ensures forall k :: k !in SettingsKeys ==> (k in r.local <==> k in st.local)
    ensures forall k :: k in st.local && k !in SettingsKeys ==> r.local[k] == st.local[k]
  {
    st.(local := st.local["serverHost" := Str(s.serverHost)]["serverPort" := Num(s.serverPort)])
  }

  /** A value written to an optional field: `null` when absent. */
  function StrOrNull(o: Option<string>): Value {
    if o.Some? then Str(o.value) else Null
  }

  function NumOrNull(o: Option<int>): Value {
    if o.Some? then Num(o.value) else Null
  }

  /** `loadSessionState`: each field is read if it has the right type; a
      missing flag is `false` and every other missing field `null`. */
  function LoadSessionState(st: Storage): (s: SessionState)
    ensures s.isActive <==> "isActive" in st.session && st.session["isActive"] == Bool(true)
    ensures s.mediaKey == StrAt(st.session, "mediaKey")
    ensures s.ownerId == StrAt(st.session, "ownerId")
    ensures s.currentViewerCount == NumAt(st.session, "currentViewerCount")
    ensures s.lastError == StrAt(st.session, "lastError")
    ensures s.activeTabId == NumAt(st.session, "activeTabId")
  {
    var a := st.session;
    SessionState(
      if "isActive" in a && a["isActive"].Bool? then a["isActive"].b else InitialSessionState.isActive,
      StrAt(a, "mediaKey"),
      StrAt(a, "ownerId"),
      NumAt(a, "currentViewerCount"),
      StrAt(a, "lastError"),
      NumAt(a, "activeTabId"))
  }

  /** `saveSessionState`: writes every field, absent ones as `null`. */
  function SaveSessionState(st: Storage, s: SessionState): (r: Storage)
    ensures r.local == st.local
    ensures SessionKeys <= r.session.Keys
    ensures r.session["isActive"] == Bool(s.isActive)
    ensures s.mediaKey.None? ==> r.session["mediaKey"] == Null
    ensures s.mediaKey.Some? ==> r.session["mediaKey"] == Str(s.mediaKey.value)
    ensures s.ownerId.None? ==> r.session["ownerId"] == Null
    ensures s.ownerId.Some? ==> r.session["ownerId"] == Str(s.ownerId.value)
    ensures s.currentViewerCount.None? ==> r.session["currentViewerCount"] == Null
    ensures s.currentViewerCount.Some? ==> r.session["currentViewerCount"] == Num(s.currentViewerCount.value)
    ensures s.lastError.None? ==> r.session["lastError"] == Null
    ensures s.lastError.Some? ==> r.session["lastError"] == Str(s.lastError.value)
    ensures s.activeTabId.None? ==> r.session["activeTabId"] == Null
    ensures s.activeTabId.Some? ==> r.session["activeTabId"] == Num(s.activeTabId.value)
    ensures forall k :: k in st.session && k !in SessionKeys ==> k in r.session && r.session[k] == st.session[k]
  {
    st.(session := st.session["isActive" := Bool(s.isActive)]
                             ["mediaKey" := StrOrNull(s.mediaKey)]
                             ["ownerId" := StrOrNull(s.ownerId)]
                             ["currentViewerCount" := NumOrNull(s.currentViewerCount)]
                             ["lastError" := StrOrNull(s.lastError)]
                             ["activeTabId" := NumOrNull(s.activeTabId)])
  }

  /** Loading what was saved gives it back. */
  lemma SettingsRoundTrip(st: Storage, s: ExtensionSettings)
    ensures LoadSettings(SaveSettings(st, s)) == s
  {
  }

  /** Saving the settings does not disturb the session state. */
  lemma SaveSettingsKeepsSession(st: Storage, s: ExtensionSettings)
    ensures LoadSessionState(SaveSettings(st, s)) == LoadSessionState(st)
  {
  }

  lemma SessionRoundTrip(st: Storage, s: SessionState)
    ensures LoadSessionState(SaveSessionState(st, s)) == s
  {
  }

  /** Empty storage loads as the defaults. */
  lemma EmptyStorageLoadsDefaults()
    ensures LoadSettings(Storage(map[], map[])) == DefaultSettings
    ensures LoadSessionState(Storage(map[], map[])) == InitialSessionState
  {
  }

  /** The `onChanged` filter: reload only for a change to a settings key in
      the local area. */
  function ShouldReload(areaName: string, changedKeys: set<string>): (b: bool)
    ensures b <==> areaName == "local" && exists k :: k in changedKeys && k in SettingsKeys
  {
    areaName == "local" && ("serverHost" in changedKeys || "serverPort" in changedKeys)
  }

  /** What the settings-changed callback receives for one storage event. */
  function OnSettingsChanged(st: Storage, areaName: string, changedKeys: set<string>): (r: Option<ExtensionSettings>)
    ensures r.Some? <==> ShouldReload(areaName, changedKeys)
    ensures r.Some? ==> r.value == LoadSettings(st)
  {
    if ShouldReload(areaName, changedKeys) then Some(LoadSettings(st)) else None
  }

  /** The keys a storage change event reports for one write: those whose
      value was added, removed or replaced by a different value. The browser
      sends no event for a write that changes nothing. */
  function ChangedKeys(before: Area, after: Area): (keys: set<string>)
    ensures forall k :: k in keys <==>
      (k in before || k in after) && (k !in before || k !in after || before[k] != after[k])
  {
    set k | k in before.Keys + after.Keys && (k !in before || k !in after || before[k] != after[k])
  }

  /** The local area already holds exactly these settings. */
  predicate Stores(st: Storage, s: ExtensionSettings) {
    && "serverHost" in st.local && st.local["serverHost"] == Str(s.serverHost)
    && "serverPort" in st.local && st.local["serverPort"] == Num(s.serverPort)
  }

  /** Saving settings reloads with exactly the saved settings, unless the
      local area already held them, in which case no event reports a
      settings key and nothing is reloaded. */
  lemma SaveTriggersReload(st: Storage, s: ExtensionSettings)
    ensures var after := SaveSettings(st, s);
      OnSettingsChanged(after, "local", ChangedKeys(st.local, after.local)) ==
        if Stores(st, s) then None else Some(s)
  {
    var after := SaveSettings(st, s);
    var changed := ChangedKeys(st.local, after.local);
    if !Stores(st, s) {
      if "serverHost" in st.local && st.local["serverHost"] == Str(s.serverHost) {
        assert "serverPort" in changed;
      } else {
        assert "serverHost" in changed;
      }
    } else {
      assert after.local == st.local;
      assert changed == {};
    }
  }
}

=== FILE: status_monitor.dfy ===
/** Broadcast state polling (src/status-monitor.ts). Each firing of the
    30-second timer is one `Tick` whose fetch outcome is a parameter; the
    `onStateChange` callback is the tick's reported state. */
module StatusMonitor {
  import opened Results
  import opened Types

  const PollIntervalMs: nat := 30000
  const InitialState: string := "RUNNING"

  function ShowUrl(broadcastId: string): string {
    "https://api.x.com/1.1/broadcasts/show.json?ids=" + broadcastId + "&include_events=false"
  }

  /** The part of a broadcast record the monitor reads. */
  datatype StateEntry = StateEntry(state: string)

  /** The `broadcasts` object of the show response, keyed by broadcast id. */
  type ShowBody = map<string, StateEntry>

  /** `currentState`, and whether the interval timer is armed. */
  datatype Monitor = Monitor(state: string, running: bool)

  /** States after which the monitor stops itself. */
  predicate IsTerminal(state: string) {
    state == "ENDED" || state == "TIMED_OUT"
  }

  function Create(): (m: Monitor)
    ensures m.state == InitialState && !m.running
  {
    Monitor(InitialState, false)
  }

  /** `start`: the state is reset to RUNNING and the timer armed. */
  function Start(m: Monitor): (r: Monitor)
    ensures r.state == InitialState && r.running
  {
    Monitor(InitialState, true)
  }

  /** `stop`: disarms the timer and keeps the last state. */
  function Stop(m: Monitor): (r: Monitor)
    ensures !r.running && r.state == m.state
  {
    m.(running := false)
  }

  /** `getCurrentState`: the state the next observation is compared with; a
      tick reports a state only when it differs from this one. */
  function GetCurrentState(m: Monitor): (s: string)
    ensures forall id, o :: Tick(m, id, o).reported.Some? ==> Tick(m, id, o).reported.value != s
    ensures forall id, o :: Tick(m, id, o).reported.None? ==> Tick(m, id, o).monitor.state == s
  {
    m.state
  }

  /** The state one poll observes: only a 2xx reply holding a record for the
      broadcast yields one; failures and missing records are ignored. */
  function Observed(broadcastId: string, outcome: Outcome<ShowBody>): (r: Option<string>)
    ensures r.Some? <==> Succeeded(outcome) && broadcastId in outcome.body
    ensures r.Some? ==> r.value == outcome.body[broadcastId].state
  {
    match outcome
    case Failed(_, _) => None
    case Replied(status, _, _, body) =>
      if !IsOkStatus(status) || broadcastId !in body then None
      else Some(body[broadcastId].state)
  }

  /** The monitor after a tick and the state passed to the callback, if any. */
  datatype TickResult = TickResult(monitor: Monitor, reported: Option<string>)

  /** One firing of the timer. The callback runs exactly when a new, different
      state is observed; a terminal state also stops the timer. */
  function Tick(m: Monitor, broadcastId: string, outcome: Outcome<ShowBody>): (t: TickResult)
    ensures !m.running ==> t == TickResult(m, None)
    ensures t.reported.Some? <==>
      m.running && Observed(broadcastId, outcome).Some? && Observed(broadcastId, outcome).value != m.state
    ensures t.reported.Some? ==>
      t.reported == Observed(broadcastId, outcome) && t.monitor.state == t.reported.value
    ensures t.reported.None? ==> t.monitor == m
    ensures t.monitor.running <==> m.running && !(t.reported.Some? && IsTerminal(t.reported.value))
  {
    if !m.running then TickResult(m, None)
    else
      match Observed(broadcastId, outcome)
      case None => TickResult(m, None)
      case Some(s) =>
        if s == m.state then TickResult(m, None)
        else TickResult(Monitor(s, !IsTerminal(s)), Some(s))
  }

  /** The monitor after a sequence of ticks and every state reported. */
  datatype RunResult = RunResult(monitor: Monitor, reported: seq<string>)

  function Run(m: Monitor, broadcastId: string, outcomes: seq<Outcome<ShowBody>>): RunResult
    decreases |outcomes|
  {
    if outcomes == [] then RunResult(m, [])
    else
      var prev := Run(m, broadcastId, outcomes[..|outcomes| - 1]);
      var t := Tick(prev.monitor, broadcastId, outcomes[|outcomes| - 1]);
      RunResult(t.monitor, prev.reported + (if t.reported.Some? then [t.reported.value] else []))
  }

  /** Consecutive entries differ. */
  predicate NoRepeats(s: seq<string>) {
    forall i :: 0 < i < |s| ==> s[i] != s[i - 1]
  }

  function LastOr(s: seq<string>, default: string): string {
    if s == [] then default else s[|s| - 1]
  }

  /** Over any run: the callback sees only changes (never the state already
      held, never the same state twice in a row), the current state is the
      last one reported, a terminal state is always the final report and
      stops the timer, and a stopped monitor ignores every tick. */
  lemma {:induction false} RunSummary(m: Monitor, broadcastId: string, outcomes: seq<Outcome<ShowBody>>)
    ensures var r := Run(m, broadcastId, outcomes);
      && r.monitor.state == LastOr(r.reported, m.state)
      && (r.reported != [] ==> r.reported[0] != m.state)
      && NoRepeats(r.reported)
      && (forall i :: 0 <= i < |r.reported| - 1 ==> !IsTerminal(r.reported[i]))
      && (r.monitor.running <==> m.running && !(r.reported != [] && IsTerminal(r.reported[|r.reported| - 1])))
      && (!m.running ==> r == RunResult(m, []))
    decreases |outcomes|
  {
    if outcomes != [] {
      var prefix := outcomes[..|outcomes| - 1];
      RunSummary(m, broadcastId, prefix);
    }
  }

  /** Stopping twice is the same as stopping once. */
  lemma StopIsIdempotent(m: Monitor)
    ensures Stop(Stop(m)) == Stop(m)
  {
  }

  /** After a restart, the callback fires on the first observed state other
      than RUNNING. */
  lemma RestartReportsFirstChange(m: Monitor, broadcastId: string, outcome: Outcome<ShowBody>)
    requires Observed(broadcastId, outcome).Some?
    ensures var t := Tick(Start(m), broadcastId, outcome);
      t.reported.Some? <==> Observed(broadcastId, outcome).value != InitialState
  {
  }
}

=== FILE: text.dfy ===
/** String helpers the relay relies on from the JavaScript runtime: the
    `[A-Za-z0-9_]` character class of its identifier patterns, `String(n)` and
    `Number(s)` on decimal integers, `split` and `join`, and substring
    containment. */
module Text {
  import opened Results

  // ---------------------------------------------------------------- identifiers

  /** One character of the class `[A-Za-z0-9_]`. */
  predicate IsIdChar(c: char) {
    ('A' <= c <= 'Z') || ('a' <= c <= 'z') || ('0' <= c <= '9') || c == '_'
  }

  predicate AllIdChars(s: string) {
    forall i :: 0 <= i < |s| ==> IsIdChar(s[i])
  }

  /** The maximal prefix of `s` made of identifier characters: what a greedy
      `([A-Za-z0-9_]+)` group captures at the start of `s`. */
  function IdRun(s: string): (r: string)
    ensures r <= s
    ensures AllIdChars(r)
    ensures |r| < |s| ==> !IsIdChar(s[|r|])
  {
    if s == [] || !IsIdChar(s[0]) then [] else [s[0]] + IdRun(s[1..])
  }

  /** The maximal run is the only prefix that is all identifier characters
      and cannot be extended. */
  lemma {:induction false} IdRunUnique(s: string, p: string)
    requires p <= s && AllIdChars(p)
    requires |p| < |s| ==> !IsIdChar(s[|p|])
    ensures p == IdRun(s)
  {
    if s == [] || !IsIdChar(s[0]) {
    } else {
      assert p != [];
      assert p[1..] <= s[1..];
      assert AllIdChars(p[1..]) by {
        forall i | 0 <= i < |p[1..]| ensures IsIdChar(p[1..][i]) {
          assert p[1..][i] == p[i + 1];
        }
      }
      if |p[1..]| < |s[1..]| {
        assert s[1..][|p[1..]|] == s[|p|];
      }
      IdRunUnique(s[1..], p[1..]);
      assert p == [p[0]] + p[1..];
    }
  }

  /** A string made only of identifier characters is its own maximal run. */
  lemma IdRunOfIdString(s: string)
    requires AllIdChars(s)
    ensures IdRun(s) == s
  {
    IdRunUnique(s, s);
  }

  // ---------------------------------------------------------------- decimals

  predicate IsDigit(c: char) {
    '0' <= c <= '9'
  }

  predicate AllDigits(s: string) {
    forall i :: 0 <= i < |s| ==> IsDigit(s[i])
  }

  function DigitChar(d: nat): (c: char)
    requires d < 10
    ensures IsDigit(c)
  {
    (d + '0' as int) as char
  }

  function DigitValue(c: char): (d: nat)
    requires IsDigit(c)
    ensures d < 10
  {
    c as int - '0' as int
  }

  /** The value of a string of decimal digits, most significant first. */
  function DigitsValue(s: string): nat
    requires AllDigits(s)
  {
    if s == [] then 0 else DigitsValue(s[..|s| - 1]) * 10 + DigitValue(s[|s| - 1])
  }

  function Pow10(k: nat): (p: nat)
    ensures p >= 1
  {
    if k == 0 then 1 else 10 * Pow10(k - 1)
  }

  /** `String(n)` for a natural number: its shortest decimal rendering. */
  function NatToString(n: nat): (s: string)
    ensures |s| >= 1 && AllDigits(s)
    ensures DigitsValue(s) == n
    ensures |s| > 1 ==> s[0] != '0'
  {
    if n < 10 then [DigitChar(n)]
    else
      var s := NatToString(n / 10) + [DigitChar(n % 10)];
      assert s[..|s| - 1] == NatToString(n / 10);
      s
  }

  /** A number below 10^k renders in at most k characters. */
  lemma {:induction false} NatToStringLength(n: nat, k: nat)
    requires k >= 1 && n < Pow10(k)
    ensures |NatToString(n)| <= k
  {
    if n >= 10 {
      NatToStringLength(n / 10, k - 1);
    }
  }

  /** A number of at least 10^(k-1) renders in at least k characters. */
  lemma {:induction false} NatToStringLengthAtLeast(n: nat, k: nat)
    requires k >= 1 && n >= Pow10(k - 1)
    ensures |NatToString(n)| >= k
  {
    if k > 1 {
      NatToStringLengthAtLeast(n / 10, k - 1);
    }
  }

  /** The shortest decimal form of a natural number: digits only, with no
      leading zero except in `0` itself. */
  predicate IsCanonicalNat(d: string) {
    |d| >= 1 && AllDigits(d) && (|d| > 1 ==> d[0] != '0')
  }

  /** The form `String(n)` gives an integer: a canonical magnitude, preceded
      by `-` exactly when the number is negative (so never `-0`, `+1` or `007`). */
  predicate IsCanonicalInt(s: string) {
    IsCanonicalNat(s) || (|s| >= 2 && s[0] == '-' && IsCanonicalNat(s[1..]) && s[1..] != "0")
  }

  /** `String(n)` for an integer: a minus sign before the magnitude. */
  function IntToString(n: int): (s: string)
    ensures |s| >= 1
    ensures s[0] == '-' <==> n < 0
    ensures IsCanonicalInt(s)
  {
    if n < 0 then
      var d := NatToString(-n);
      assert d != "0";
      assert ("-" + d)[1..] == d;
      "-" + d
    else NatToString(n)
  }

  /** A canonical digit string with a non-zero leading digit has a positive value. */
  lemma {:induction false} LeadingDigitPositive(d: string)
    requires |d| >= 1 && AllDigits(d) && d[0] != '0'
    ensures DigitsValue(d) >= 1
  {
    if |d| > 1 {
      var p := d[..|d| - 1];
      assert p[0] == d[0];
      LeadingDigitPositive(p);
    }
  }

  /** A canonical digit string is the rendering of its own value. */
  lemma {:induction false} CanonicalNatIsNatToString(d: string)
    requires IsCanonicalNat(d)
    ensures d == NatToString(DigitsValue(d))
  {
    var n := DigitsValue(d);
    var p := d[..|d| - 1];
    var last := d[|d| - 1];
    if |d| == 1 {
      assert DigitsValue(p) == 0;
      assert DigitChar(DigitValue(last)) == last;
      assert d == [last];
    } else {
      assert p[0] == d[0];
      LeadingDigitPositive(p);
      assert IsCanonicalNat(p);
      CanonicalNatIsNatToString(p);
      assert n == DigitsValue(p) * 10 + DigitValue(last);
      assert n / 10 == DigitsValue(p) && n % 10 == DigitValue(last);
      assert DigitChar(DigitValue(last)) == last;
      assert d == p + [last];
    }
  }

  /** `String(n)` is the only canonical text that reads back as `n`: any other
      rendering with the same value has a sign, a leading zero or a `-0`. */
  lemma CanonicalIntIsIntToString(s: string, n: int)
    requires IsCanonicalInt(s) && ParseNumber(s) == Some(n)
    ensures s == IntToString(n)
  {
    if IsCanonicalNat(s) {
      assert IsDigit(s[0]);
      CanonicalNatIsNatToString(s);
    } else {
      var d := s[1..];
      CanonicalNatIsNatToString(d);
      if |d| == 1 {
        assert DigitsValue(d) == DigitsValue(d[..0]) * 10 + DigitValue(d[0]);
      } else {
        LeadingDigitPositive(d);
      }
      assert s == "-" + d;
    }
  }

  /** `Number(s)` restricted to decimal integers: an optional sign followed by
      at least one digit; the empty string is 0, as in JavaScript. Every other
      form is treated as NaN. */
  function ParseNumber(s: string): (r: Option<int>)
    ensures r.Some? && s != [] ==> exists i :: 0 <= i < |s| && IsDigit(s[i])
  {
    if s == [] then Some(0)
    else if s[0] == '-' && |s| > 1 && AllDigits(s[1..]) then
      assert IsDigit(s[1..][0]);
      var v: int := DigitsValue(s[1..]);
      Some(-v)
    else if s[0] == '+' && |s| > 1 && AllDigits(s[1..]) then
      assert IsDigit(s[1..][0]);
      Some(DigitsValue(s[1..]))
    else if AllDigits(s) then
      assert IsDigit(s[0]);
      Some(DigitsValue(s))
    else None
  }

  /** Rendering an integer and reading it back gives the integer. */
  lemma IntToStringRoundTrip(n: int)
    ensures ParseNumber(IntToString(n)) == Some(n)
  {
    if n < 0 {
      var s := IntToString(n);
      assert s[1..] == NatToString(-n);
    }
  }

  // ---------------------------------------------------------------- split / join

  /** Number of occurrences of `d` in `s`. */
  function Count(s: string, d: char): nat {
    if s == [] then 0 else (if s[0] == d then 1 else 0) + Count(s[1..], d)
  }

  /** `parts.join(sep)`. */
  function Join(parts: seq<string>, sep: string): string {
    if |parts| == 0 then []
    else if |parts| == 1 then parts[0]
    else parts[0] + sep + Join(parts[1..], sep)
  }

  /** `s.split(d)` for a one-character separator. */
  function Split(s: string, d: char): (parts: seq<string>)
    ensures |parts| == Count(s, d) + 1
    ensures forall i :: 0 <= i < |parts| ==> d !in parts[i]
    ensures Join(parts, [d]) == s
  {
    if s == [] then [[]]
    else
      var rest := Split(s[1..], d);
      if s[0] == d then
        assert Join([[]] + rest, [d]) == [d] + Join(rest, [d]) by {
          assert ([[]] + rest)[1..] == rest;
        }
        [[]] + rest
      else
        var parts := [[s[0]] + rest[0]] + rest[1..];
        assert parts[1..] == rest[1..];
        assert Join(parts, [d]) == [s[0]] + Join(rest, [d]) by {
          if |rest| > 1 {
            assert Join(rest, [d]) == rest[0] + [d] + Join(rest[1..], [d]);
          }
        }
        assert s == [s[0]] + s[1..];
        parts
  }

  // ---------------------------------------------------------------- containment

  /** `sub` occurs in `s` starting at position `k`. */
  predicate HasInfixAt(s: string, sub: string, k: nat) {
    k + |sub| <= |s| && s[k..k + |sub|] == sub
  }

  /** `s.includes(sub)`. */
  predicate HasInfix(s: string, sub: string) {
    exists k: nat :: k <= |s| && HasInfixAt(s, sub, k)
  }

  lemma InfixOfConcat(a: string, b: string, c: string)
    ensures HasInfix(a + b + c, b)
  {
    assert (a + b + c)[|a|..|a| + |b|] == b;
    assert HasInfixAt(a + b + c, b, |a|);
  }

  lemma InfixLeft(a: string, b: string, sub: string)
    requires HasInfix(a, sub)
    ensures HasInfix(a + b, sub)
  {
    var k: nat :| k <= |a| && HasInfixAt(a, sub, k);
    assert (a + b)[k..k + |sub|] == a[k..k + |sub|];
    assert HasInfixAt(a + b, sub, k);
  }

  lemma InfixRight(a: string, b: string, sub: string)
    requires HasInfix(b, sub)
    ensures HasInfix(a + b, sub)
  {
    var k: nat :| k <= |b| && HasInfixAt(b, sub, k);
    assert (a + b)[|a| + k..|a| + k + |sub|] == b[k..k + |sub|];
    assert HasInfixAt(a + b, sub, |a| + k);
  }

  /** Containment is transitive. */
  lemma InfixTrans(s: string, mid: string, sub: string)
    requires HasInfix(s, mid) && HasInfix(mid, sub)
    ensures HasInfix(s, sub)
  {
    var k: nat :| k <= |s| && HasInfixAt(s, mid, k);
    var j: nat :| j <= |mid| && HasInfixAt(mid, sub, j);
    assert mid == s[k..k + |mid|];
    forall t | 0 <= t < |sub| ensures s[k + j + t] == sub[t] {
      assert sub[t] == mid[j + t];
    }
    assert s[k + j..k + j + |sub|] == sub;
    assert HasInfixAt(s, sub, k + j);
  }

  /** Every part of a join occurs in the joined string. */
  lemma {:induction false} JoinContainsParts(parts: seq<string>, sep: string, i: nat)
    requires i < |parts|
    ensures HasInfix(Join(parts, sep), parts[i])
  {
    if |parts| == 1 {
      InfixOfConcat([], parts[0], []);
      assert [] + parts[0] + [] == parts[0];
    } else if i == 0 {
      InfixOfConcat([], parts[0], sep + Join(parts[1..], sep));
      assert [] + parts[0] + (sep + Join(parts[1..], sep)) == Join(parts, sep);
    } else {
      JoinContainsParts(parts[1..], sep, i - 1);
      InfixRight(parts[0] + sep, Join(parts[1..], sep), parts[i]);
    }
  }
}

=== FILE: token_provider.dfy ===
/** Chat-credential acquisition and lifetime tracking (src/token-provider.ts).
    The two HTTP exchanges are given as outcomes, the clock as `now`, and the
    base64url + JSON decoding of the token's middle segment as a parameter. */
module TokenProvider {
  import opened Results
  import opened Types
  import Text

  const LiveVideoStreamUrl: string := "https://api.x.com/1.1/live_video_stream/status"
  const AccessChatPublicUrl: string := "https://proxsee-cf.pscp.tv/api/v2/accessChatPublic"

  /** The decoded claims of a token: `exp` is `None` when absent or not a number. */
  datatype JwtPayload = JwtPayload(exp: Option<int>)

  /** base64url-decodes and JSON-parses one segment; `None` where that throws. */
  type SegmentDecoder = string -> Option<JwtPayload>

  /** Body of the stream-status response. */
  datatype StreamStatus = StreamStatus(chatToken: Option<string>)

  /** Body of the chat-token exchange response. */
  datatype ChatAccess = ChatAccess(accessToken: string, endpoint: string, roomId: string)

  /** `decodeJwtExp`: the numeric `exp` claim of a three-segment token, read
      without verifying the signature. */
  function DecodeJwtExp(jwt: string, decode: SegmentDecoder): (r: Option<int>)
    ensures r.Some? ==> Text.Count(jwt, '.') == 2
    ensures r.Some? ==>
      var middle := Text.Split(jwt, '.')[1];
      decode(middle).Some? && decode(middle).value.exp == r
    ensures Text.Count(jwt, '.') == 2 && decode(Text.Split(jwt, '.')[1]).Some? ==>
      r == decode(Text.Split(jwt, '.')[1]).value.exp
  {
    var parts := Text.Split(jwt, '.');
    if |parts| != 3 then None
    else
      match decode(parts[1])
      case None => None
      case Some(payload) => payload.exp
  }

  /** One run of the acquisition protocol: its result and the URLs fetched. */
  datatype Attempt = Attempt(result: Result<ChatCredentials, TokenError>, requests: seq<string>)

  function StatusUrl(mediaKey: string): string {
    LiveVideoStreamUrl + "/" + mediaKey + ".json"
  }

  /** A missing or empty token (JavaScript falsiness). */
  predicate NoToken(t: Option<string>) {
    t.None? || t.value == ""
  }

  /** `acquireToken`: stream status, then the token's expiry, then the token
      exchange; each failure maps to its own error kind. */
  function AcquireToken(mediaKey: string, status: Outcome<StreamStatus>, exchange: Outcome<ChatAccess>,
                        decode: SegmentDecoder): (a: Attempt)
    ensures 1 <= |a.requests| <= 2 && a.requests[0] == StatusUrl(mediaKey)
    ensures |a.requests| == 2 ==> a.requests[1] == AccessChatPublicUrl
    // the status lookup
    ensures status.Failed? ==> a == Attempt(Err(TokenApiError(0, status.message)), [StatusUrl(mediaKey)])
    ensures status.Replied? && status.status == 404 ==> a.result == Err(StreamNotFound(mediaKey))
    ensures status.Replied? && !IsOkStatus(status.status) && status.status != 404 ==>
      a.result == Err(TokenApiError(status.status, status.statusText))
    // no usable token: offline, and the exchange is never called
    ensures Succeeded(status) && NoToken(status.body.chatToken) ==>
      a == Attempt(Err(StreamOffline), [StatusUrl(mediaKey)])
    ensures Succeeded(status) && !NoToken(status.body.chatToken) &&
            DecodeJwtExp(status.body.chatToken.value, decode).None? ==>
      a == Attempt(Err(StreamOffline), [StatusUrl(mediaKey)])
    // the exchange is reached exactly when the token and its expiry are usable
    ensures |a.requests| == 2 <==>
      Succeeded(status) && !NoToken(status.body.chatToken) &&
      DecodeJwtExp(status.body.chatToken.value, decode).Some?
    ensures |a.requests| == 2 && exchange.Failed? ==> a.result == Err(TokenApiError(0, exchange.message))
    ensures |a.requests| == 2 && exchange.Replied? && !IsOkStatus(exchange.status) ==>
      a.result == Err(ChatAccessDenied)
    // success: credentials from the exchange, expiry in milliseconds
    ensures a.result.Ok? <==> |a.requests| == 2 && Succeeded(exchange)
    ensures a.result.Ok? ==>
      var exp := DecodeJwtExp(status.body.chatToken.value, decode).value;
      a.result.value == ChatCredentials(exchange.body.accessToken, exchange.body.endpoint,
                                        exchange.body.roomId, exp * 1000)
  {
    var first := [StatusUrl(mediaKey)];
    match status
    case Failed(_, message) => Attempt(Err(TokenApiError(0, message)), first)
    case Replied(code, statusText, _, body) =>
      if !IsOkStatus(code) then
        if code == 404 then Attempt(Err(StreamNotFound(mediaKey)), first)
        else Attempt(Err(TokenApiError(code, statusText)), first)
      else if NoToken(body.chatToken) then Attempt(Err(StreamOffline), first)
      else
        match DecodeJwtExp(body.chatToken.value, decode)
        case None => Attempt(Err(StreamOffline), first)
        case Some(exp) =>
          var both := first + [AccessChatPublicUrl];
          match exchange
          case Failed(_, message) => Attempt(Err(TokenApiError(0, message)), both)
          case Replied(code2, _, _, access) =>
            if !IsOkStatus(code2) then Attempt(Err(ChatAccessDenied), both)
            else Attempt(Ok(ChatCredentials(access.accessToken, access.endpoint, access.roomId, exp * 1000)), both)
  }

  /** Credentials together with the time they were obtained. */
  datatype Stored = Stored(credentials: ChatCredentials, acquiredAt: int)

  /** The provider's state: the last media key acquired with, and the
      current credentials. */
  datatype Provider = Provider(mediaKey: Option<string>, stored: Option<Stored>)

  predicate Valid(p: Provider) {
    p.mediaKey.Some? <==> p.stored.Some?
  }

  function Create(): (p: Provider)
    ensures Valid(p) && p.stored.None?
  {
    Provider(None, None)
  }

  /** What `acquire` or `refresh` did: the new state, the result and the
      URLs fetched. */
  datatype Step = Step(provider: Provider, result: Result<ChatCredentials, TokenError>, requests: seq<string>)

  /** `acquire`: on success the media key, the credentials and the
      acquisition time are all replaced; on failure nothing changes. */
  function Acquire(p: Provider, mediaKey: string, now: int, status: Outcome<StreamStatus>,
                   exchange: Outcome<ChatAccess>, decode: SegmentDecoder): (s: Step)
    ensures Valid(p) ==> Valid(s.provider)
    ensures s.result.Ok? ==>
      s.provider == Provider(Some(mediaKey), Some(Stored(s.result.value, now)))
    ensures s.result.Err? ==> s.provider == p
    ensures s.requests != [] && s.requests[0] == StatusUrl(mediaKey)
    ensures var a := AcquireToken(mediaKey, status, exchange, decode);
      s.result == a.result && s.requests == a.requests
  {
    var a := AcquireToken(mediaKey, status, exchange, decode);
    if a.result.Ok? then
      Step(Provider(Some(mediaKey), Some(Stored(a.result.value, now))), a.result, a.requests)
    else Step(p, a.result, a.requests)
  }

  /** `refresh`: re-run the protocol with the stored media key; before any
      successful acquire it fails offline without any request. */
  function Refresh(p: Provider, now: int, status: Outcome<StreamStatus>,
                   exchange: Outcome<ChatAccess>, decode: SegmentDecoder): (s: Step)
    ensures p.mediaKey.None? ==> s == Step(p, Err(StreamOffline), [])
    ensures p.mediaKey.Some? ==> s.requests != [] && s.requests[0] == StatusUrl(p.mediaKey.value)
    ensures Valid(p) ==> Valid(s.provider)
    ensures s.provider.mediaKey == p.mediaKey
    ensures s.result.Ok? ==> s.provider.stored == Some(Stored(s.result.value, now))
    ensures s.result.Err? ==> s.provider == p
    ensures p.mediaKey.Some? ==>
      var a := AcquireToken(p.mediaKey.value, status, exchange, decode);
      s.result == a.result && s.requests == a.requests
  {
    match p.mediaKey
    case None => Step(p, Err(StreamOffline), [])
    case Some(key) =>
      var a := AcquireToken(key, status, exchange, decode);
      if a.result.Ok? then Step(p.(stored := Some(Stored(a.result.value, now))), a.result, a.requests)
      else Step(p, a.result, a.requests)
  }

  /** `isExpiringSoon`: true without credentials; otherwise true once 80% of
      the lifetime (expiry minus acquisition time) has elapsed. The integer
      comparison is exactly the comparison over the reals. */
  function IsExpiringSoon(p: Provider, now: int): (r: bool)
    ensures p.stored.None? ==> r
    ensures p.stored.Some? ==>
      var at := p.stored.value.acquiredAt;
      var lifetime := p.stored.value.credentials.expiresAt - at;
      (r <==> (now - at) as real >= 0.8 * lifetime as real)
  {
    match p.stored
    case None => true
    case Some(s) =>
      var lifetime := s.credentials.expiresAt - s.acquiredAt;
      var elapsed := now - s.acquiredAt;
      5 * elapsed >= 4 * lifetime
  }

  function GetCredentials(p: Provider): (c: Option<ChatCredentials>)
    ensures c.Some? <==> p.stored.Some?
    ensures c.Some? ==> c.value == p.stored.value.credentials
  {
    match p.stored
    case None => None
    case Some(s) => Some(s.credentials)
  }

  /** Once the credentials are expiring soon they stay so as time goes on. */
  lemma ExpiringSoonIsMonotone(p: Provider, now1: int, now2: int)
    requires now1 <= now2 && IsExpiringSoon(p, now1)
    ensures IsExpiringSoon(p, now2)
  {
  }

  /** Credentials past their expiry are always reported as expiring soon. */
  lemma ExpiredIsExpiringSoon(p: Provider, now: int)
    requires p.stored.Some?
    requires now >= p.stored.value.credentials.expiresAt && now >= p.stored.value.acquiredAt
    ensures IsExpiringSoon(p, now)
  {
  }

  /** After a successful acquire or refresh, the credentials held are the
      ones it returned. */
  lemma CredentialsAfterSuccess(p: Provider, mediaKey: string, now: int, status: Outcome<StreamStatus>,
                                exchange: Outcome<ChatAccess>, decode: SegmentDecoder)
    ensures var s := Acquire(p, mediaKey, now, status, exchange, decode);
      s.result.Ok? ==> GetCredentials(s.provider) == Some(s.result.value)
    ensures var s := Refresh(p, now, status, exchange, decode);
      s.result.Ok? ==> GetCredentials(s.provider) == Some(s.result.value)
    ensures var s := Acquire(p, mediaKey, now, status, exchange, decode);
      s.result.Err? ==> GetCredentials(s.provider) == GetCredentials(p)
  {
  }

  /** Before any successful acquire, a refresh fails offline and fetches nothing. */
  lemma RefreshBeforeAcquire(now: int, status: Outcome<StreamStatus>, exchange: Outcome<ChatAccess>,
                             decode: SegmentDecoder)
    ensures Refresh(Create(), now, status, exchange, decode) == Step(Create(), Err(StreamOffline), [])
  {
  }
}

=== FILE: types.dfy ===
/** Domain records, the closed error taxonomies, and the abstract network
    outcome shared by every component (src/types.ts). */
module Types {

  /** Metadata of one broadcast; an immutable snapshot. */
  datatype BroadcastInfo = BroadcastInfo(
    broadcastId: string,
    mediaKey: string,
    title: string,
    state: string,
    username: string,
    displayName: string,
    startedAt: int)

  /** Chat-session credentials; replaced wholesale, never patched. */
  datatype ChatCredentials = ChatCredentials(
    accessToken: string,
    endpoint: string,
    roomId: string,
    expiresAt: int)

  /** One envelope of the chat-history endpoint: kind 1 is a chat message. */
  datatype RawChatMessage = RawChatMessage(kind: int, payload: string, signature: string)

  /** A normalised chat comment; `id` is the sole deduplication key. */
  datatype ParsedComment = ParsedComment(
    id: string,
    userId: string,
    username: string,
    displayName: string,
    comment: string,
    profileImage: string,
    timestamp: int,
    verified: bool,
    lang: string)

  /** One receiver-side service (channel) of the comment application. */
  datatype OneCommeService = OneCommeService(id: string, name: string, url: string)

  /** Failure kinds of broadcast resolution. */
  datatype BroadcastError =
    | InvalidUrl(url: string)
    | NotFound(broadcastId: string)
    | AlreadyEnded(broadcastId: string)
    | BroadcastApiError(status: int, message: string)

  /** Failure kinds of chat-credential acquisition. */
  datatype TokenError =
    | StreamNotFound(mediaKey: string)
    | StreamOffline
    | ChatAccessDenied
    | TokenApiError(status: int, message: string)

  /** Failure kinds of comment delivery. */
  datatype SendError =
    | ConnectionRefused
    | InvalidServiceId(serviceId: string)
    | ValidationError(details: string)
    | SendApiError(status: int, message: string)
    | Timeout

  /** An (id, name) pair reported when a service name is ambiguous. */
  datatype ServiceMatch = ServiceMatch(id: string, name: string)

  /** Failure kinds of service-name resolution that the resolver produces. */
  datatype ServiceResolveError =
    | ServiceNotFound(serviceName: string, availableServices: seq<string>)
    | Ambiguous(serviceName: string, matches: seq<ServiceMatch>)
    | ResolveConnectionRefused
    | ResolveTimeout
    | ResolveApiError(status: int, message: string)

  /** What one `fetch` produced: either it threw (an abort or any other
      transport failure, with the error's message) or the server replied with
      a status, a status text, the raw body text and the decoded JSON body. */
  datatype Outcome<+B> =
    | Failed(isAbort: bool, message: string)
    | Replied(status: int, statusText: string, text: string, body: B)

  /** `Response.ok`: the status is in the 2xx range. */
  predicate IsOkStatus(status: int) {
    200 <= status <= 299
  }

  /** The reply was received and its status is 2xx. */
  predicate Succeeded<B>(o: Outcome<B>) {
    o.Replied? && IsOkStatus(o.status)
  }
}

=== FILE: viewer_count.dfy ===
/** Viewer-count extraction and badge formatting (extension/src/viewer-count.ts). */
module ViewerCount {
  import opened Results
  import Text

  /** `extractCurrentViewerCount`: the last bucket of the `ts` series, or
      nothing when the series is empty. */
  function ExtractCurrentViewerCount(ts: seq<int>): (r: Option<int>)
    ensures r.None? <==> ts == []
    ensures r.Some? ==> r.value == ts[|ts| - 1] && r.value in ts
  {
    if |ts| == 0 then None else Some(ts[|ts| - 1])
  }

  /** Counts at or above this are shown in whole thousands. */
  const WholeThousandsFrom: int := 9950

  /** `formatViewerCount`: whole thousands with a `k` from 9950 up (the
      tenths form would round to 10.0 there), tenths of a thousand with a
      `k` from 1000, the plain number below. Rounding is half-up. */
  function FormatViewerCount(count: int): (r: string)
    ensures count < 1000 ==> Text.IsCanonicalInt(r) && Text.ParseNumber(r) == Some(count)
    ensures count >= 1000 ==> |r| >= 2 && r[|r| - 1] == 'k'
  {
    if count >= WholeThousandsFrom then
      Text.NatToString((count + 500) / 1000) + "k"
    else if count >= 1000 then
      var tenths := (count + 50) / 100;
      [Text.DigitChar(tenths / 10), '.', Text.DigitChar(tenths % 10), 'k']
    else
      Text.IntToStringRoundTrip(count);
      Text.IntToString(count)
  }

  /** From 9950 up, the number before the `k` is the count in thousands,
      off by at most half a thousand. */
  lemma WholeThousandsApproximate(count: int)
    requires count >= WholeThousandsFrom
    ensures var r := FormatViewerCount(count);
      exists n: nat :: r == Text.NatToString(n) + "k" && 1000 * n - 500 <= count < 1000 * n + 500
  {
    var n: nat := (count + 500) / 1000;
    assert FormatViewerCount(count) == Text.NatToString(n) + "k";
  }

  /** From 1000 to 9949, the badge reads `a.bk` where `a.b` is the count in
      thousands, off by at most half a hundred. */
  lemma TenthsApproximate(count: int)
    requires 1000 <= count < WholeThousandsFrom
    ensures var r := FormatViewerCount(count);
      exists a: nat, b: nat :: 1 <= a <= 9 && b <= 9 &&
        r == [Text.DigitChar(a), '.', Text.DigitChar(b), 'k'] &&
        100 * (10 * a + b) - 50 <= count < 100 * (10 * a + b) + 50
  {
    var tenths := (count + 50) / 100;
    var a: nat, b: nat := tenths / 10, tenths % 10;
    assert 10 * a + b == tenths;
    assert FormatViewerCount(count) == [Text.DigitChar(a), '.', Text.DigitChar(b), 'k'];
  }

  /** The badge text fits in four characters for every count below 999500. */
  lemma {:induction false} FitsBadge(count: int)
    requires 0 <= count < 999500
    ensures |FormatViewerCount(count)| <= 4
  {
    if count >= WholeThousandsFrom {
      Text.NatToStringLength((count + 500) / 1000, 3);
    } else if count < 1000 {
      Text.NatToStringLength(count, 3);
    }
  }

  /** From 999500 on, the badge no longer fits in four characters. */
  lemma {:induction false} TooWideFromMillion(count: int)
    requires count >= 999500
    ensures |FormatViewerCount(count)| >= 5
  {
    assert Text.Pow10(3) == 1000;
    Text.NatToStringLengthAtLeast((count + 500) / 1000, 4);
  }
}
